=== FILE: README.md ===
# glTF importer scene graph and skinning, in Dafny

This project models the index-based core of a Blender glTF importer. It
covers the following parts:

- **Skin membership.** `get_skins` finds which skins list a node as a joint,
  and `Node.__init__` rejects a node listed by two skins.
- **Hierarchy.** The importer links parents and children from the declared
  child-index lists, and node 0 must have no parent.
- **Naming.** A node without a name gets the fallback `_%03d`.
- **Transforms.** `create_object` and `Skin.get_matrix` apply index
  permutations: a column-major matrix layout, `[x,y,z,w]` to `(w,x,y,z)`
  quaternions, and a `(s0,s2,s1)` scale swap.
- **Armature pass.** `create_armature` decides which rig a bone joins, which
  bone it hangs from, where a leaf bone's tail goes, and which child bones are
  connected.
- **Skinning.** `load` selects the skinned nodes, and `_setup_skinning` writes
  per-vertex weights into named vertex groups.
- **Pruning.** `load` runs a root check, then the recursive `remove_empty`
  pruner.

The model works on an arena of nodes addressed by their position in the glTF
node list. Blender objects, armatures and bones are handles: a rig or bone is
its position in a sequence of created rigs or bones. The pruner's
"has data / has armature" facts are booleans. Every Python exception the
code can raise on these paths becomes an `Err` of `ImportError`. Examples are
an out-of-range list index, `list.remove` of a missing value, or a read of
an attribute on `None`. Python list indexing wraps negative indices
(`PyIndex`). The two recursive passes take a `depth` budget standing for
Python's recursion limit. Running out of it is `Err(RecursionLimit)`, so a
cyclic child list ends in an error, as the Python does.

Modules, one per file:

- `Wrappers` holds `Option` and `Result`.
- `GltfTypes` holds the parsed glTF records, the errors and `PyIndex`.
- `Naming`, `Transform`, `SkinMembership`, `Hierarchy` and `Armature` model
  `blender_io/node_io.py`.
- `Skinning` and `Pruner` model `blender_io/__init__.py`.
- `PruneSpec` gives an independent reference definition of pruning on a
  well-formed tree. A node survives when it has an armature, has data, or has
  a surviving child. `PruneSpec` proves that `Pruner` computes exactly that,
  and that pruning twice changes nothing when the root survives.

Quirks of the code, modelled as written:

- **Root check.** The root check in `load` is written with `and`. It raises
  only when there is more than one parentless node and the first of them is
  not node 0, and `roots[0]` raises when there is none.
- **Leaf bone tail.** A leaf skinned node whose parent has no bone makes the
  import fail. Reading `self.parent.blender_bone.head` raises, which the
  model states as `Err(MissingParentBone)`.
- **Armature name.** A new armature is named `'armature' + node_name` only
  when the skin HAS a name. Otherwise it keeps the skin's empty name.
- **Pruning twice.** `remove_empty` on a node whose object was already
  removed reads `blender_object.data` of a deleted object, which raises. So
  when the root itself was pruned, a second run fails rather than doing
  nothing (`PruneSpec.RemoveEmptyTwiceWithoutRoot`).

## Model

| member | source | states |
|---|---|---|
| GltfTypes.PyIndex | blender_io/node_io.py:252 | `nodes[i]` succeeds exactly for `-n <= i < n`. The node it picks is `i` itself or `n + i`, whichever lies in the list, so it is the position `i` counts to from the front or from the back. |
| Naming.NodeName | blender_io/node_io.py:156-158 | A non-empty name is kept. An empty name becomes `_` plus digits that read back as the index, with no padding beyond three digits. |
| Naming.FallbackNameReadsBack | blender_io/node_io.py:91-93 | `'_%03d' % index` starts with `_`, has at least three digits, parses back to the index, and has a leading zero only when three digits are the minimum width. |
| Naming.DecimalRoundTrip | blender_io/node_io.py:93 | Reading the `%d` spelling of a number gives the number back. |
| Naming.FallbackNameInjective | blender_io/node_io.py:93 | Two nameless nodes with different indices never get the same fallback name. |
| Naming.FallbackNameWidth | blender_io/node_io.py:93 | An index below 1000 gets exactly three digits. |
| Transform.MatrixFromColumnMajor | blender_io/node_io.py:128-133 | The built matrix is 4x4, and entry (row r, column c) is `m[4*c + r]`. |
| Transform.MatrixLayoutRoundTrip | blender_io/node_io.py:128-133 | Writing the built matrix out column by column gives the 16 input floats back. |
| Transform.MatrixLayoutOnto | blender_io/node_io.py:128-133 | Every 4x4 matrix is the layout of its own column-major listing, so the layout is a bijection. |
| Transform.GetMatrix | blender_io/node_io.py:54-64 | An inverse bind matrix is laid out from the `Mat16` buffer fields exactly as a node matrix is from its 16 floats. An out-of-range slot fails. |
| Transform.QuatFromGltf | blender_io/node_io.py:117-118 | The quaternion's `w` is the fourth glTF component, and its `(x, y, z)` are the first three in order. |
| Transform.QuatToGltf | blender_io/node_io.py:117-118 | Writing a Blender quaternion back as glTF `[x,y,z,w]` and reordering it again gives the same quaternion. |
| Transform.QuatReorderRoundTrip | blender_io/node_io.py:117-118 | The `(w,x,y,z)` reordering loses nothing: reading a glTF rotation and writing it back gives its four components. |
| Transform.SwapScale | blender_io/node_io.py:122-124 | The Blender scale is a permutation of the first three glTF components. It keeps `s0` first and puts `s2` second. |
| Transform.SwapScaleInvolution | blender_io/node_io.py:122-124 | The scale swap `(s0,s2,s1)` permutes the three components and is its own inverse. |
| Transform.ResolveTransform | blender_io/node_io.py:113-138 | See the notes after the table. |
| SkinMembership.FirstSlot | blender_io/node_io.py:242-245 | The yielded slot is the first position listing the node. No slot is yielded exactly when the skin does not list it. |
| SkinMembership.GetSkins | blender_io/node_io.py:240-245 | There is one pair per skin that lists the node and none for other skins. Pairs come in skin order, and each holds that skin's first listing slot. |
| SkinMembership.NodeSkin | blender_io/node_io.py:77-82 | Construction fails with `MultipleSkin` exactly when two skins list the node. Otherwise the node's skin is the one skin listing it, at its first slot, or none. |
| Hierarchy.ResolveChildren | blender_io/node_io.py:251-252 | Each declared child index resolves to the node Python indexing picks, in declared order. Any out-of-range index fails. |
| Hierarchy.ResolveAll | blender_io/node_io.py:250-253 | Resolving the child lists of every node from `from` on succeeds iff each node's own list resolves. Entry `i` is then node `i`'s resolved list, and every index is inside the arena. |
| Hierarchy.AllNodeSkins | blender_io/node_io.py:246-247 | Building all nodes fails exactly when some node is listed by two skins. Otherwise node `i` gets `NodeSkin(i)`. |
| Hierarchy.LastDeclarerMeaning | blender_io/node_io.py:250-254 | Among the first `upto` nodes, the last declarer of `c` lists `c`, no later node lists it, and there is none when nobody lists `c`. |
| Hierarchy.Link | blender_io/node_io.py:250-254 | A node has no parent iff no list declares it. Otherwise its parent is the LAST node whose list declares it. |
| Hierarchy.LoadObjects | blender_io/node_io.py:238-256 | See the notes after the table. |
| Hierarchy.Roots | blender_io/__init__.py:97 | The roots are exactly the parentless nodes, in increasing index order. |
| Hierarchy.RootCheck | blender_io/__init__.py:97-99 | See the notes after the table. |
| Hierarchy.RootCheckFirstIsRoot | blender_io/__init__.py:97-99 | Whenever node 0 has no parent, the check passes and returns node 0, however many other roots exist. |
| Hierarchy.RootCheckAfterLoad | blender_io/node_io.py:255-256 | After a successful load, the root check in `load` cannot fail, and pruning starts at node 0. |
| Armature.CreateBone | blender_io/node_io.py:147-201 | See the notes after the table. |
| Armature.ArmatureName | blender_io/node_io.py:166-169 | The name is empty iff the skin's name is. Otherwise it is `armature` followed by the node name. |
| Armature.NewRigs | blender_io/node_io.py:160-172 | With a parent in the same skin, the rigs are unchanged. Otherwise exactly one rig is appended, owned by the node and named by `ArmatureName`. |
| Armature.NewBone | blender_io/node_io.py:160-201 | The bone belongs to the node and carries its name, its flag and its position as head. It hangs from the parent's bone, in the parent's rig, iff the parent is in the same skin. Otherwise it joins the new rig. It has a tail iff the node is a leaf, and that tail extends the parent-to-node step. |
| Armature.NewBoneOk | blender_io/node_io.py:160-201 | The new bone is well formed. It is named after the node, hangs from the parent's bone in the parent's rig iff the parent is in the same skin, and otherwise roots a new rig the node owns with the armature name as written. Its head is the node's position, and a leaf's tail extends the parent-to-node step. |
| Armature.AddBone | blender_io/node_io.py:160-197 | Creating a bone adds exactly one bone and at most one rig, keeps every bone well formed, and points the node's handles at the new bone. |
| Armature.ChildIsConnect | blender_io/node_io.py:203-217 | See the notes after the table. |
| Armature.ChildFlag | blender_io/node_io.py:203-207 | The flag `child_is_connect` gives a child is false when the parent is in no skin. It is true when the parent is skinned and has only this child. |
| Armature.Visit | blender_io/node_io.py:146-221 | The pre-order walk only adds rigs and bones and keeps every bone well formed. A skinned node's bone is the first one its visit creates, and carries the flag the node was visited with. The node has a bone handle afterwards. |
| Armature.VisitChildren | blender_io/node_io.py:219-221 | Visiting the children in order keeps every bone well formed and only extends the created rigs and bones. |
| Armature.VisitChildrenFirst | blender_io/node_io.py:203-221 | Child `k` is visited next. If it is skinned, the first new bone is its own, with the flag `child_is_connect` computes for it from the state before the visit. |
| Armature.VisitCovers | blender_io/node_io.py:146-221 | A successful visit gives a bone to every skinned node any number of child steps below the visited node. |
| Armature.VisitChildrenCovers | blender_io/node_io.py:219-221 | A successful child loop gives a bone to every skinned node below each child it still has to visit. |
| Armature.VisitConnect | blender_io/node_io.py:146-221 | When every child's parent is the node listing it, a visit with a rule-abiding flag leaves every bone's connect flag abiding by the rule. The rule is: never for a root or for a child of a node in no skin, and always for the only child of a skinned node. |
| Armature.VisitChildrenConnect | blender_io/node_io.py:203-221 | The child loop keeps every bone's connect flag abiding by that rule. |
| Armature.VisitErrors | blender_io/node_io.py:160-163 | On tree links, a visit whose node's skinned parent already has its bone fails only with `RecursionLimit` or `MissingParentBone`. The reused rig of a same-skin parent always exists. |
| Armature.VisitChildrenErrors | blender_io/node_io.py:219-221 | The child loop visits each child after its parent, so it fails only with `RecursionLimit` or `MissingParentBone`. |
| Armature.VisitSucceeds | blender_io/node_io.py:146-221 | On tree links, a visit succeeds when three things hold: the node's skinned parent has its bone, the budget exceeds the height below the node, and every skinned leaf below has a skinned parent. |
| Armature.VisitChildrenSucceeds | blender_io/node_io.py:219-221 | The child loop succeeds when each remaining child meets those conditions with one step less of budget. |
| Armature.CreateArmatures | blender_io/node_io.py:271 | See the notes after the table. |
| Skinning.LoopVertices | blender_io/__init__.py:33-36 | The vertices the loops visit are exactly the vertices some polygon loop references. |
| Skinning.DedupFromMeaning | blender_io/__init__.py:30-40 | Skipping already-done vertices keeps every vertex not seen before, each exactly once. |
| Skinning.LastWeightIsLastEntry | blender_io/__init__.py:42-51 | See the notes after the table. |
| Skinning.ReferencedSplit | blender_io/__init__.py:33-36 | A vertex is referenced by a polygon list iff the first polygon's loops or the later polygons refer to it. |
| Skinning.DedupStep | blender_io/__init__.py:37-39 | A vertex already done is skipped. A new one is processed once and then counts as done. |
| Skinning.WriteVertex | blender_io/__init__.py:42-51 | Processing one new vertex succeeds iff all its entries can be read. Afterwards every group holds that vertex's expected weight, and the other vertices are unchanged. |
| Skinning.Advance | blender_io/__init__.py:35-51 | One turn of the weight loop fails iff its vertex cannot be read. Otherwise every group holds the expected weight of each vertex met so far and nothing else, and the processed list grows in first-occurrence order. |
| Skinning.SetupSkinning | blender_io/__init__.py:22-51 | See the notes after the table. |
| Skinning.SetupMeshSkinning | blender_io/__init__.py:32-51 | See the notes after the table. |
| Skinning.SkinnedNodes | blender_io/__init__.py:86-87 | The selected nodes are exactly those with both `mesh != -1` and `skin != -1`, in increasing order. |
| Skinning.BoneNames | blender_io/__init__.py:90-91 | `bone_names[k]` is the name of the node at joint slot `k`. An out-of-range joint fails. |
| Skinning.PlanJob | blender_io/__init__.py:88-94 | A node's job fails iff its mesh, its skin, one of the skin's joints or the skin's skeleton is out of range. Otherwise it carries that mesh, those bone names and that skeleton. |
| Skinning.PlanJobs | blender_io/__init__.py:86-94 | Planning a list of nodes fails iff one node's job fails. Otherwise there is one job per node, in order. |
| Skinning.JobsCoverSkinned | blender_io/__init__.py:86-87 | A node has a job iff it has both a mesh and a skin. |
| Skinning.SkinningJobs | blender_io/__init__.py:86-94 | See the notes after the table. |
| Pruner.RemoveFirst | blender_io/__init__.py:120 | `list.remove` drops exactly one occurrence of the value. |
| Pruner.RemoveFirstAt | blender_io/__init__.py:120 | Removing a node from its parent's children cuts exactly its position. The siblings keep their order. |
| Pruner.Settle | blender_io/__init__.py:106-120 | See the notes after the table. |
| Pruner.Prune | blender_io/__init__.py:101-120 | `remove_empty` on one node keeps every child index in range and never restores a removed node. |
| Pruner.PruneChildren | blender_io/__init__.py:102-104 | The reverse loop over the children keeps every child index in range and never restores a removed node. |
| Pruner.SettleShrinks | blender_io/__init__.py:106-120 | The tail of `remove_empty` drops at most one entry of one child list, and removes only a childless node with no armature and no data. |
| Pruner.PruneShrinks | blender_io/__init__.py:101-120 | `remove_empty` on one node only drops entries from child lists, and every node it removes is childless, has no armature and no data. |
| Pruner.PruneChildrenShrinks | blender_io/__init__.py:102-104 | The reverse loop over the children only drops entries from child lists, and removes only empty nodes. |
| Pruner.RemoveEmpty | blender_io/__init__.py:97-122 | Pruning from the checked root removes only empty nodes. Every child list only loses entries. |
| PruneSpec.SurvivesIffKept | blender_io/__init__.py:106-115 | A node survives iff it has an armature, has data, or keeps a surviving child. |
| PruneSpec.PruneIsReference | blender_io/__init__.py:101-120 | On a well-formed tree with enough depth, `remove_empty` on node `i` gives exactly the reference result for the subtree of `i`. |
| PruneSpec.PruneChildrenIsReference | blender_io/__init__.py:102-104 | After the child loop, each visited child's subtree is in its reference state. The dead children are cut from the list and the survivors keep their order. |
| PruneSpec.RemoveEmptyIsReference | blender_io/__init__.py:122 | Pruning from root 0 of a well-formed tree succeeds with the reference result for the whole tree. |
| PruneSpec.RemoveEmptyOutcome | blender_io/__init__.py:101-122 | See the notes after the table. |
| PruneSpec.RemoveEmptyLeavesNoEmptyNode | blender_io/__init__.py:106-115 | After pruning, every node under the root still in the scene has a child, an armature or data. |
| PruneSpec.RemoveEmptyIdempotent | blender_io/__init__.py:101-122 | When the root survives, pruning the result again changes nothing. This holds both rerun on the pruned state and started afresh from the pruned child lists. |
| PruneSpec.RemoveEmptyTwiceWithoutRoot | blender_io/__init__.py:112-118 | When nothing under the root survives, the root object is removed. Pruning again fails on the deleted object. |

Notes on the longer rows:

- **Transform.ResolveTransform.**
  - It fails exactly when a present rotation, scale or matrix is too short
    to index.
  - When a matrix is present, the decomposition of the column-major layout
    gives location, rotation and swapped scale.
  - Otherwise each of translation, rotation and scale is set exactly when it
    is present, from `mod_v`, `mod_q` of the reordered quaternion, and the
    swapped scale.
- **Hierarchy.LoadObjects.**
  - It fails with `MultipleSkin` exactly when a node is listed by two skins.
  - It fails exactly when a node is listed by two skins, a child index is out
    of range, there are no nodes, or node 0 is somebody's child.
  - On success, each node keeps its glTF name, mesh and skin references, its
    resolved skin, and its declared children in order.
  - A node's parent is the last node declaring it.
- **Hierarchy.RootCheck.**
  - It passes exactly when some parentless node is either the only one or
    node 0.
  - The node it returns is the first parentless node.
- **Armature.CreateBone.**
  - The bone joins the parent's rig and hangs from the parent's bone exactly
    when the parent is in the same skin. Otherwise it starts a new rig and
    has no bone parent.
  - The head is the node's position.
  - A leaf's tail satisfies `tail - head == head - parent.head`.
  - It fails exactly when the reused parent has no rig yet
    (`MissingParentRig`), or a leaf has no parent bone
    (`MissingParentBone`).
- **Armature.ChildIsConnect.**
  - A child of a node in no skin is never connected.
  - The only child of a skinned node always is.
  - Otherwise the flag is the direction test on (parent bone head or origin
    → this head) and (this node → child).
- **Armature.CreateArmatures.** It is the pass from node 0 with `is_connect`
  false.
  - It leaves only well-formed bones.
  - If node 0 is skinned, its bone is the first and is not connected.
  - On success, every skinned node reachable from node 0 has a bone.
  - When every child's parent is the node listing it and node 0 has no
    parent, every bone's connect flag follows the `child_is_connect` rule.
    That is, it is false for a root or a child of a node in no skin, and true
    for the only child of a skinned node.
  - On those links it never fails with `MissingParentRig`. A parent is
    visited before its children, so a parent in the same skin always has its
    rig. The only failures are `RecursionLimit` and `MissingParentBone`.
  - On those links it succeeds whenever two things hold. The depth budget
    must exceed the height of the tree below node 0. Every skinned leaf must
    have a skinned parent.
- **Skinning.LastWeightIsLastEntry.**
  - REPLACE semantics: a group holds the weight of the last non-zero entry
    naming it, not a sum.
  - It holds nothing when no such entry exists.
- **Skinning.SetupSkinning.**
  - One group exists per bone name.
  - It succeeds iff every visited vertex can be read.
  - Each group holds, for each visited vertex, its expected (last non-zero)
    weight, and nothing for any other vertex.
  - Vertices are processed in first-occurrence order, once each.
- **Skinning.SetupMeshSkinning.**
  - A vertex that no polygon loop references gets no weight in any group.
  - A referenced vertex gets exactly its expected weight.
  - It succeeds iff every referenced vertex can be read.
- **Skinning.SkinningJobs.**
  - Exactly the nodes with a mesh and a skin get a job, in node order, each
    as `PlanJob` makes it.
  - It fails iff the job of one of those nodes fails.
- **Pruner.Settle.**
  - A node that still has children or an armature is kept unchanged.
  - An already removed node fails with `RemovedObject`.
  - A node with data is kept.
  - Otherwise the node is removed and cut once from its parent's list.
  - This fails with `ValueNotInList` exactly when the node is not in that
    list. It always succeeds, removing the node, when the node is there or
    has no parent.
  - No other error can occur.
- **PruneSpec.RemoveEmptyOutcome.**
  - Every node under the root keeps exactly its surviving children, in
    linked order.
  - Every other list is untouched.
  - The removed nodes are exactly the non-surviving nodes under the root.

## Left out

- **Blender side effects.** All `bpy` side effects are left out because they
  act on Blender's scene, not on the importer's logic. These include:
  - object, armature and bone creation;
  - collection linking, `mode_set`, selection and `context.scene.update`;
  - the armature modifier and the `'js'` property;
  - `bpy.data.objects.remove`, which the pruner records as the `removed`
    set.
- **Floating-point geometry.** It is not modelled, because it is `mathutils`
  numerics:
  - `matrix.decompose()` is a function parameter of `ResolveTransform`;
  - `matrix_world.to_translation()` is a given position per node;
  - `normalized()` and the `dot > 0.8` test form the uninterpreted `aligned`
    predicate.
- **`mod_v` and `mod_q`.** Both are identities in the code, and they are
  function parameters of `ResolveTransform`.
- **Inverse bind matrix buffer.** The lazy load (`gltf_buffer.get_array`)
  and the ctypes `Mat16` binary layout are foreign buffer I/O. `GetMatrix`
  takes the already-read records.
- **Transform.GetMatrix.** It treats a negative joint slot as out of range.
  It does not model ctypes array wrap-around, because joint slots come from
  `get_skins` and are never negative.
- **The rest of `load` and `load_objects`.** Left out as I/O and reporting:
  - the file existence check, JSON parsing and `ImportManager`;
  - the texture, material and mesh loaders;
  - `ProgressReport` and the `print` logging;
  - the collection setup in `load_objects`.
- **`blenderedit.py`.** A developer run script, not importer logic.
- **The object-creation walk.** Its only modelled parts are naming
  (`NodeName`) and the transform (`ResolveTransform`). The rest creates
  Blender objects.
- **The `blender_object` early return.** `if not self.blender_object:
  return` in `create_armature` is not modelled. The object pass visits the
  same nodes from node 0 first, so every visited node has an object.
- **Duplicate vertex group names.** `Skinning.SetupSkinning` keys groups by
  bone name, so duplicate bone names share one group. Blender instead
  renames a duplicate group (`name.001`), which is host behaviour.
- **Bone names in `load`.** `load` reads `bone_name` from a node class in
  `blender_io/node.py`, which is not part of this model. `Skinning.BoneNames`
  uses the same own-name-or-`_%03d` rule as the bones themselves.
- **Mismatched `load_objects` call.** `load` calls `load_objects` with a
  different signature than `node_io.py` defines, and iterates its result as
  nodes. The model connects the two through the node arena.
- **Recursion limit.** The `depth` budget stands for Python's recursion
  limit, whose exact value is host configuration. The reference-behaviour
  lemmas of `PruneSpec` assume a budget at least the tree height.
- **Armature.CreateArmatures:** the connect-flag rule is stated only when
  every child's parent is the node listing it. A node listed by two parents
  gets the last one as parent, but is visited with the flag of every parent
  listing it, so the rule does not hold there.
- **PruneSpec lemmas.** `PruneSpec.PruneIsReference`,
  `PruneSpec.RemoveEmptyOutcome` and `PruneSpec.RemoveEmptyIdempotent` are
  stated for well-formed trees only. Their parent links must match the child
  lists with no duplicates and no cycles. On other inputs the pruner's own
  contracts (`Pruner.Prune`) still hold.

=== FILE: armature.dfy ===
/** The structural part of create_armature (blender_io/node_io.py): a pre-order
    walk from node 0 that creates one bone per skinned node, decides whether the
    bone joins its parent's rig or starts a new one, which bone it hangs from,
    where a leaf bone's tail goes, and which child bones are connected. Blender's
    objects are handles: rigs and bones are positions in the state's sequences. */
module Armature {
  import opened Wrappers
  import opened GltfTypes
  import opened SkinMembership
  import opened Hierarchy
  import opened Naming

  datatype Point = Point(x: real, y: real, z: real)

  const Origin := Point(0.0, 0.0, 0.0)

  function Add(a: Point, b: Point): Point {
    Point(a.x + b.x, a.y + b.y, a.z + b.z)
  }

  function Sub(a: Point, b: Point): Point {
    Point(a.x - b.x, a.y - b.y, a.z - b.z)
  }

  /** What the walk reads but never changes: the node arena, the skins, every
      node object's world position, and the direction test `dot > 0.8` on the
      normalized parent and child directions, left uninterpreted. */
  datatype Scene = Scene(nodes: seq<Node>, skins: seq<GltfSkin>, pos: seq<Point>, aligned: (Point, Point) -> bool)

  /** A created edit bone: the node it was made for, its name, its rig, its
      parent bone, its `use_connect` flag, head and (for leaves) tail. */
  datatype Bone = Bone(owner: nat, name: string, rig: nat, parent: Option<nat>, connect: bool, head: Point, tail: Option<Point>)

  /** A created armature object: the node that started it and its name. */
  datatype Rig = Rig(owner: nat, name: string)

  /** Everything created so far, and each node's `blender_armature` and
      `blender_bone`, as positions in `rigs` and `bones`. */
  datatype RigState = RigState(rigs: seq<Rig>, bones: seq<Bone>, rigOf: map<nat, nat>, boneOf: map<nat, nat>)

  const Empty := RigState([], [], map[], map[])

  predicate ValidScene(sc: Scene) {
    && |sc.pos| == |sc.nodes|
    && (forall i :: 0 <= i < |sc.nodes| && sc.nodes[i].parent.Some? ==> sc.nodes[i].parent.value < |sc.nodes|)
    && (forall i, k :: 0 <= i < |sc.nodes| && 0 <= k < |sc.nodes[i].children| ==> sc.nodes[i].children[k] < |sc.nodes|)
    && (forall i :: 0 <= i < |sc.nodes| && sc.nodes[i].skin.Some? ==> sc.nodes[i].skin.value.skin < |sc.skins|)
  }

  /** The bone name of node `i`: its own name or `_%03d`. */
  function BoneName(sc: Scene, i: nat): string
    requires i < |sc.nodes|
  {
    NodeName(sc.nodes[i].name, i)
  }

  /** The name a new rig gets, as written: `'armature' + node_name` when the skin
      HAS a name, and the skin's own (empty) name otherwise. */
  function ArmatureName(skinName: string, nodeName: string): (r: string)
    ensures r == [] <==> skinName == []
    ensures r != [] ==> |r| == 8 + |nodeName| && r[..8] == "armature" && r[8..] == nodeName
  {
    if |skinName| > 0 then "armature" + nodeName else skinName
  }

  /** Node `i` has a parent and that parent belongs to the same skin. */
  predicate SameSkinParent(sc: Scene, i: nat)
    requires ValidScene(sc) && i < |sc.nodes| && sc.nodes[i].skin.Some?
  {
    var p := sc.nodes[i].parent;
    p.Some? && sc.nodes[p.value].skin.Some? && sc.nodes[p.value].skin.value.skin == sc.nodes[i].skin.value.skin
  }

  /** What holds of bone `h` once it exists. */
  predicate BoneOk(sc: Scene, rigs: seq<Rig>, bones: seq<Bone>, h: nat)
    requires ValidScene(sc) && h < |bones|
  {
    var b := bones[h];
    && b.owner < |sc.nodes| && sc.nodes[b.owner].skin.Some?
    && b.name == BoneName(sc, b.owner)
    && b.rig < |rigs|
    && b.head == sc.pos[b.owner]
    && (b.parent.Some? <==> SameSkinParent(sc, b.owner))
    && (b.parent.Some? ==>
          && b.parent.value < h
          && Some(bones[b.parent.value].owner) == sc.nodes[b.owner].parent
          && bones[b.parent.value].rig == b.rig)
    && (b.parent.None? ==>
          && rigs[b.rig].owner == b.owner
          && rigs[b.rig].name == ArmatureName(sc.skins[sc.nodes[b.owner].skin.value.skin].name, b.name))
    && (b.tail.Some? <==> |sc.nodes[b.owner].children| == 0)
    && (b.tail.Some? ==>
          && sc.nodes[b.owner].parent.Some?
          && Sub(b.tail.value, b.head) == Sub(b.head, sc.pos[sc.nodes[b.owner].parent.value]))
  }

  /** The invariant of the walk: every bone is well formed, and each node's
      armature and bone handles point at a bone made for that node and its rig. */
  predicate Valid(sc: Scene, st: RigState)
    requires ValidScene(sc)
  {
    && (forall h :: 0 <= h < |st.bones| ==> BoneOk(sc, st.rigs, st.bones, h))
    && st.rigOf.Keys == st.boneOf.Keys
    && (forall i :: i in st.boneOf ==>
          && i < |sc.nodes| && st.boneOf[i] < |st.bones|
          && st.bones[st.boneOf[i]].owner == i
          && st.rigOf[i] == st.bones[st.boneOf[i]].rig)
  }

  /** `st2` only adds to `st`: bones and rigs are never changed or dropped. */
  predicate Extends(st: RigState, st2: RigState) {
    && |st.rigs| <= |st2.rigs| && st2.rigs[..|st.rigs|] == st.rigs
    && |st.bones| <= |st2.bones| && st2.bones[..|st.bones|] == st.bones
    && st.boneOf.Keys <= st2.boneOf.Keys
  }

  lemma BoneOkExtends(sc: Scene, rigs: seq<Rig>, bones: seq<Bone>, rigs2: seq<Rig>, bones2: seq<Bone>, h: nat)
    requires ValidScene(sc) && h < |bones| && BoneOk(sc, rigs, bones, h)
    requires |rigs| <= |rigs2| && rigs2[..|rigs|] == rigs
    requires |bones| <= |bones2| && bones2[..|bones|] == bones
    ensures BoneOk(sc, rigs2, bones2, h)
  {
    assert bones2[h] == bones[h];
    if bones[h].parent.Some? {
      assert bones2[bones[h].parent.value] == bones[bones[h].parent.value];
    } else {
      assert rigs2[bones[h].rig] == rigs[bones[h].rig];
    }
  }

  /** Appending a well-formed bone for node `i` and pointing `i`'s handles at
      it keeps the state valid. */
  lemma AppendBoneValid(sc: Scene, st: RigState, rigs: seq<Rig>, b: Bone, i: nat)
    requires ValidScene(sc) && Valid(sc, st) && i < |sc.nodes|
    requires |st.rigs| <= |rigs| && rigs[..|st.rigs|] == st.rigs
    requires b.owner == i && BoneOk(sc, rigs, st.bones + [b], |st.bones|)
    ensures Valid(sc, RigState(rigs, st.bones + [b], st.rigOf[i := b.rig], st.boneOf[i := |st.bones|]))
  {
    var bones := st.bones + [b];
    forall h | 0 <= h < |st.bones|
      ensures BoneOk(sc, rigs, bones, h)
    {
      assert bones[..|st.bones|] == st.bones;
      BoneOkExtends(sc, st.rigs, st.bones, rigs, bones, h);
    }
  }

  /** The rigs after node `i`'s bone: its parent's when the parent is in the
      same skin, else one more, started by `i`. */
  function NewRigs(sc: Scene, i: nat, st: RigState): (rigs: seq<Rig>)
    requires ValidScene(sc) && i < |sc.nodes| && sc.nodes[i].skin.Some?
    ensures SameSkinParent(sc, i) ==> rigs == st.rigs
    ensures !SameSkinParent(sc, i) ==>
              && |rigs| == |st.rigs| + 1 && rigs[..|st.rigs|] == st.rigs
              && rigs[|st.rigs|].owner == i
              && rigs[|st.rigs|].name == ArmatureName(sc.skins[sc.nodes[i].skin.value.skin].name, BoneName(sc, i))
  {
    if SameSkinParent(sc, i) then st.rigs
    else st.rigs + [Rig(i, ArmatureName(sc.skins[sc.nodes[i].skin.value.skin].name, BoneName(sc, i)))]
  }

  /** Node `i`'s new bone, made as the skinned branch of create_armature makes it. */
  function NewBone(sc: Scene, i: nat, connect: bool, st: RigState): (b: Bone)
    requires ValidScene(sc) && Valid(sc, st) && i < |sc.nodes| && sc.nodes[i].skin.Some?
    requires SameSkinParent(sc, i) ==> sc.nodes[i].parent.value in st.boneOf
    requires |sc.nodes[i].children| == 0 ==> sc.nodes[i].parent.Some? && sc.nodes[i].parent.value in st.boneOf
    ensures b.owner == i && b.name == BoneName(sc, i) && b.connect == connect && b.head == sc.pos[i]
    ensures b.parent.Some? <==> SameSkinParent(sc, i)
    ensures SameSkinParent(sc, i) ==>
              var p := sc.nodes[i].parent.value;
              b.parent == Some(st.boneOf[p]) && b.rig == st.rigOf[p]
    ensures !SameSkinParent(sc, i) ==> b.rig == |st.rigs|
    ensures b.tail.Some? <==> |sc.nodes[i].children| == 0
    ensures b.tail.Some? ==>
              Sub(b.tail.value, b.head) == Sub(b.head, st.bones[st.boneOf[sc.nodes[i].parent.value]].head)
  {
    var node := sc.nodes[i];
    var reuse := SameSkinParent(sc, i);
    var head := sc.pos[i];
    Bone(i, BoneName(sc, i),
         if reuse then st.rigOf[node.parent.value] else |st.rigs|,
         if reuse then Some(st.boneOf[node.parent.value]) else None,
         connect, head,
         if |node.children| == 0
         then Some(Add(head, Sub(head, st.bones[st.boneOf[node.parent.value]].head)))
         else None)
  }

  /** Node `i`'s new bone is well formed among the new rigs. */
  lemma NewBoneOk(sc: Scene, i: nat, connect: bool, st: RigState)
    requires ValidScene(sc) && Valid(sc, st) && i < |sc.nodes| && sc.nodes[i].skin.Some?
    requires SameSkinParent(sc, i) ==> sc.nodes[i].parent.value in st.boneOf
    requires |sc.nodes[i].children| == 0 ==> sc.nodes[i].parent.Some? && sc.nodes[i].parent.value in st.boneOf
    ensures BoneOk(sc, NewRigs(sc, i, st), st.bones + [NewBone(sc, i, connect, st)], |st.bones|)
  {
    var node := sc.nodes[i];
    var b := NewBone(sc, i, connect, st);
    var bones := st.bones + [b];
    if node.parent.Some? && node.parent.value in st.boneOf {
      var ph := st.boneOf[node.parent.value];
      assert BoneOk(sc, st.rigs, st.bones, ph);
      assert bones[ph] == st.bones[ph];
    }
    assert bones[|st.bones|] == b;
  }

  /** The bone and rigs the skinned branch creates for node `i` when it does not
      fail: see CreateBone. */
  function AddBone(sc: Scene, i: nat, connect: bool, st: RigState): (st2: RigState)
    requires ValidScene(sc) && Valid(sc, st) && i < |sc.nodes| && sc.nodes[i].skin.Some?
    requires SameSkinParent(sc, i) ==> sc.nodes[i].parent.value in st.boneOf
    requires |sc.nodes[i].children| == 0 ==> sc.nodes[i].parent.Some? && sc.nodes[i].parent.value in st.boneOf
    ensures |st2.bones| == |st.bones| + 1 && Valid(sc, st2) && Extends(st, st2)
    ensures st2.boneOf == st.boneOf[i := |st.bones|]
    ensures var b := st2.bones[|st.bones|];
            && b.owner == i && b.connect == connect
            && (SameSkinParent(sc, i) ==>
                  var p := sc.nodes[i].parent.value;
                  && st2.rigs == st.rigs && b.rig == st.rigOf[p] && b.parent == Some(st.boneOf[p]))
            && (!SameSkinParent(sc, i) ==>
                  && |st2.rigs| == |st.rigs| + 1 && b.rig == |st.rigs|
                  && st2.rigs[b.rig].owner == i && b.parent.None?)
  {
    var b := NewBone(sc, i, connect, st);
    var rigs := NewRigs(sc, i, st);
    NewBoneOk(sc, i, connect, st);
    AppendBoneValid(sc, st, rigs, b, i);
    assert (st.bones + [b])[..|st.bones|] == st.bones;
    RigState(rigs, st.bones + [b], st.rigOf[i := b.rig], st.boneOf[i := |st.bones|])
  }

  /** A state that extends one extending `st` extends `st`. */
  lemma ExtendsTrans(st: RigState, st1: RigState, r: Result<RigState, ImportError>)
    requires Extends(st, st1)
    ensures r.Ok? && Extends(st1, r.value) ==> Extends(st, r.value)
  {
    if r.Ok? && Extends(st1, r.value) {
      assert r.value.rigs[..|st.rigs|] == r.value.rigs[..|st1.rigs|][..|st.rigs|];
      assert r.value.bones[..|st.bones|] == r.value.bones[..|st1.bones|][..|st.bones|];
    }
  }

  /** The skinned branch of create_armature for node `i`, visited with flag
      `connect`: reuse the parent's rig and hang the bone from the parent's bone
      exactly when the parent is in the same skin, else start a new rig with a
      root bone; put the head at the node's world position and, for a leaf,
      extend the tail one parent-to-node step further. Also yields the parent
      bone the child test reads. Fails when the parent of a reused rig has no
      rig yet, or when a leaf has no parent bone to extrapolate from. */
  function CreateBone(sc: Scene, i: nat, connect: bool, st: RigState): (r: Result<(RigState, Option<nat>), ImportError>)
    requires ValidScene(sc) && Valid(sc, st) && i < |sc.nodes| && sc.nodes[i].skin.Some?
    ensures r.Err? <==> || (SameSkinParent(sc, i) && sc.nodes[i].parent.value !in st.boneOf)
                        || (|sc.nodes[i].children| == 0 &&
                            (sc.nodes[i].parent.None? || sc.nodes[i].parent.value !in st.boneOf))
    ensures r.Err? ==> && (r.error == MissingParentRig || r.error == MissingParentBone)
                       && (r.error == MissingParentRig <==> SameSkinParent(sc, i) && sc.nodes[i].parent.value !in st.boneOf)
    ensures r.Ok? ==> |r.value.0.bones| == |st.bones| + 1
    ensures r.Ok? ==>
              var (st2, parentBone) := r.value;
              var b := st2.bones[|st.bones|];
              && Valid(sc, st2) && Extends(st, st2)
              && st2.boneOf == st.boneOf[i := |st.bones|]
              && b.owner == i && b.connect == connect && b.parent == parentBone
              && (SameSkinParent(sc, i) ==>
                    var p := sc.nodes[i].parent.value;
                    && st2.rigs == st.rigs && b.rig == st.rigOf[p] && parentBone == Some(st.boneOf[p]))
              && (!SameSkinParent(sc, i) ==>
                    && |st2.rigs| == |st.rigs| + 1 && b.rig == |st.rigs|
                    && st2.rigs[b.rig].owner == i && parentBone.None?)
  {
    var node := sc.nodes[i];
    if SameSkinParent(sc, i) && node.parent.value !in st.rigOf then Err(MissingParentRig)
    else if |node.children| == 0 && (node.parent.None? || node.parent.value !in st.boneOf) then Err(MissingParentBone)
    else
      var st2 := AddBone(sc, i, connect, st);
      Ok((st2, st2.bones[|st.bones|].parent))
  }

  /** child_is_connect: no child of a node outside every skin is connected; the
      only child of a skinned node always is; otherwise a child is connected when
      the direction from the parent bone's head (or the origin) to this bone's
      head and the direction from this node to the child pass the test. */
  function ChildIsConnect(sc: Scene, st: RigState, i: nat, parentBone: Option<nat>, child: nat): (r: bool)
    requires ValidScene(sc) && Valid(sc, st) && i < |sc.nodes| && child < |sc.nodes|
    requires sc.nodes[i].skin.Some? ==> i in st.boneOf
    requires parentBone.Some? ==> parentBone.value < |st.bones|
    ensures sc.nodes[i].skin.None? ==> !r
    ensures sc.nodes[i].skin.Some? && |sc.nodes[i].children| == 1 ==> r
    ensures sc.nodes[i].skin.Some? && |sc.nodes[i].children| != 1 ==>
              var parentHead := if parentBone.Some? then st.bones[parentBone.value].head else Origin;
              r == sc.aligned(Sub(sc.pos[i], parentHead), Sub(sc.pos[child], sc.pos[i]))
  {
    if sc.nodes[i].skin.None? then false
    else if |sc.nodes[i].children| == 1 then true
    else
      assert BoneOk(sc, st.rigs, st.bones, st.boneOf[i]);
      var parentHead := if parentBone.Some? then
                          assert BoneOk(sc, st.rigs, st.bones, parentBone.value);
                          st.bones[parentBone.value].head
                        else Origin;
      var head := st.bones[st.boneOf[i]].head;
      sc.aligned(Sub(head, parentHead), Sub(sc.pos[child], sc.pos[i]))
  }

  /** create_armature on node `i` with flag `connect`, `depth` calls deep at most
      (Python's recursion limit): the skinned branch, then every child in order
      with the flag child_is_connect gives it. */
  function Visit(sc: Scene, i: nat, connect: bool, depth: nat, st: RigState): (r: Result<RigState, ImportError>)
    requires ValidScene(sc) && Valid(sc, st) && i < |sc.nodes|
    ensures r.Ok? ==> Valid(sc, r.value) && Extends(st, r.value)
    ensures r.Ok? && sc.nodes[i].skin.Some? ==>
              && |r.value.bones| > |st.bones|
              && r.value.bones[|st.bones|].owner == i
              && r.value.bones[|st.bones|].connect == connect
              && i in r.value.boneOf
    decreases depth, 1
  {
    if sc.nodes[i].skin.Some? then
      match CreateBone(sc, i, connect, st)
      case Err(e) => Err(e)
      case Ok((st1, parentBone)) =>
        var r := VisitChildren(sc, i, parentBone, 0, depth, st1);
        ExtendsTrans(st, st1, r);
        r
    else
      VisitChildren(sc, i, None, 0, depth, st)
  }

  /** The loop over `self.children[k..]` at the end of create_armature. */
  function VisitChildren(sc: Scene, i: nat, parentBone: Option<nat>, k: nat, depth: nat, st: RigState): (r: Result<RigState, ImportError>)
    requires ValidScene(sc) && Valid(sc, st) && i < |sc.nodes| && k <= |sc.nodes[i].children|
    requires sc.nodes[i].skin.Some? ==> i in st.boneOf
    requires parentBone.Some? ==> parentBone.value < |st.bones|
    ensures r.Ok? ==> Valid(sc, r.value) && Extends(st, r.value)
    decreases depth, 0, |sc.nodes[i].children| - k
  {
    if k == |sc.nodes[i].children| then Ok(st)
    else if depth == 0 then Err(RecursionLimit)
    else
      var child := sc.nodes[i].children[k];
      var flag := ChildIsConnect(sc, st, i, parentBone, child);
      var d: nat := depth - 1;
      match Visit(sc, child, flag, d, st)
      case Err(e) => Err(e)
      case Ok(st1) =>
        assert |st.bones| <= |st1.bones| && st.boneOf.Keys <= st1.boneOf.Keys;
        var r := VisitChildren(sc, i, parentBone, k + 1, depth, st1);
        ExtendsTrans(st, st1, r);
        r
  }

  /** What the child loop of node `i` needs from its state before child `k`. */
  predicate LoopPre(sc: Scene, st: RigState, i: nat, parentBone: Option<nat>, k: nat) {
    && ValidScene(sc) && Valid(sc, st) && i < |sc.nodes| && k <= |sc.nodes[i].children|
    && (sc.nodes[i].skin.Some? ==> i in st.boneOf)
    && (parentBone.Some? ==> parentBone.value < |st.bones|)
  }

  /** Node `c` is `n` child steps below node `i`. */
  ghost predicate Reaches(sc: Scene, i: nat, c: nat, n: nat)
    requires ValidScene(sc) && i < |sc.nodes|
    decreases n
  {
    if n == 0 then i == c
    else exists j :: 0 <= j < |sc.nodes[i].children| && Reaches(sc, sc.nodes[i].children[j], c, n - 1)
  }

  /** Every child list entry names a node whose parent is the listing node: the
      links of a tree, where each node is declared by one parent only. */
  predicate TreeLinks(sc: Scene)
    requires ValidScene(sc)
  {
    forall p, j :: 0 <= p < |sc.nodes| && 0 <= j < |sc.nodes[p].children| ==>
      sc.nodes[sc.nodes[p].children[j]].parent == Some(p)
  }

  /** The connect flag child_is_connect promises for node `c`, going by its
      parent: never for a root or a child of a node outside every skin, always
      for the only child of a skinned node. */
  predicate FlagOk(sc: Scene, c: nat, connect: bool)
    requires ValidScene(sc) && c < |sc.nodes|
  {
    match sc.nodes[c].parent
    case None => !connect
    case Some(p) =>
      && (sc.nodes[p].skin.None? ==> !connect)
      && (sc.nodes[p].skin.Some? && |sc.nodes[p].children| == 1 ==> connect)
  }

  /** Every created bone carries the flag FlagOk promises for its node. */
  predicate ConnectRule(sc: Scene, st: RigState)
    requires ValidScene(sc) && Valid(sc, st)
  {
    forall h :: 0 <= h < |st.bones| && st.bones[h].owner < |sc.nodes| ==> FlagOk(sc, st.bones[h].owner, st.bones[h].connect)
  }

  /** One turn of the child loop: visit child `k` with its flag, then go on
      from the state that visit leaves, or stop at its error. */
  lemma ChildrenStep(sc: Scene, i: nat, parentBone: Option<nat>, k: nat, depth: nat, d: nat, st: RigState)
    requires LoopPre(sc, st, i, parentBone, k) && k < |sc.nodes[i].children| && depth == d + 1
    ensures var child := sc.nodes[i].children[k];
            var v := Visit(sc, child, ChildIsConnect(sc, st, i, parentBone, child), d, st);
            && (v.Err? ==> VisitChildren(sc, i, parentBone, k, depth, st) == Err(v.error))
            && (v.Ok? ==> && LoopPre(sc, v.value, i, parentBone, k + 1)
                          && VisitChildren(sc, i, parentBone, k, depth, st) == VisitChildren(sc, i, parentBone, k + 1, depth, v.value))
  {
  }

  /** The loop visits child `k` first, with the flag child_is_connect computes
      from the state before it: its first bone is that child's, with that flag. */
  lemma VisitChildrenFirst(sc: Scene, i: nat, parentBone: Option<nat>, k: nat, depth: nat, st: RigState)
    requires LoopPre(sc, st, i, parentBone, k) && k < |sc.nodes[i].children|
    ensures var r := VisitChildren(sc, i, parentBone, k, depth, st);
            var child := sc.nodes[i].children[k];
            r.Ok? && sc.nodes[child].skin.Some? ==>
              && |r.value.bones| > |st.bones|
              && r.value.bones[|st.bones|].owner == child
              && r.value.bones[|st.bones|].connect == ChildIsConnect(sc, st, i, parentBone, child)
  {
    var r := VisitChildren(sc, i, parentBone, k, depth, st);
    var child := sc.nodes[i].children[k];
    if depth != 0 && r.Ok? && sc.nodes[child].skin.Some? {
      var d: nat := depth - 1;
      var flag := ChildIsConnect(sc, st, i, parentBone, child);
      ChildrenStep(sc, i, parentBone, k, depth, d, st);
      var st1 := Visit(sc, child, flag, d, st).value;
      assert r.value.bones[..|st1.bones|] == st1.bones;
      assert r.value.bones[|st.bones|] == st1.bones[|st.bones|];
    }
  }

  /** create_armature on `i`: create the bone when `i` is skinned, stopping at
      its error, then run the child loop from the first child. */
  lemma VisitStep(sc: Scene, i: nat, connect: bool, depth: nat, st: RigState)
    requires ValidScene(sc) && Valid(sc, st) && i < |sc.nodes|
    ensures sc.nodes[i].skin.None? ==>
              LoopPre(sc, st, i, None, 0) && Visit(sc, i, connect, depth, st) == VisitChildren(sc, i, None, 0, depth, st)
    ensures sc.nodes[i].skin.Some? ==>
              var made := CreateBone(sc, i, connect, st);
              && (made.Err? ==> Visit(sc, i, connect, depth, st) == Err(made.error))
              && (made.Ok? ==> && LoopPre(sc, made.value.0, i, made.value.1, 0)
                               && Visit(sc, i, connect, depth, st) == VisitChildren(sc, i, made.value.1, 0, depth, made.value.0))
  {
  }

  /** A visit that succeeds gives a bone to every skinned node below it. */
  lemma {:induction false} VisitCovers(sc: Scene, i: nat, connect: bool, depth: nat, st: RigState, c: nat, n: nat)
    requires ValidScene(sc) && Valid(sc, st) && i < |sc.nodes| && c < |sc.nodes|
    requires Reaches(sc, i, c, n) && sc.nodes[c].skin.Some?
    ensures var r := Visit(sc, i, connect, depth, st); r.Ok? ==> c in r.value.boneOf
    decreases depth, 1
  {
    if n > 0 {
      var m: nat := n - 1;
      var j :| 0 <= j < |sc.nodes[i].children| && Reaches(sc, sc.nodes[i].children[j], c, m);
      VisitStep(sc, i, connect, depth, st);
      if sc.nodes[i].skin.None? {
        VisitChildrenCovers(sc, i, None, 0, depth, st, j, c, m);
      } else {
        var made := CreateBone(sc, i, connect, st);
        if made.Ok? {
          VisitChildrenCovers(sc, i, made.value.1, 0, depth, made.value.0, j, c, m);
        }
      }
    }
  }

  /** The child loop gives a bone to every skinned node below the children it
      has still to visit. */
  lemma {:induction false} VisitChildrenCovers(sc: Scene, i: nat, parentBone: Option<nat>, k: nat, depth: nat, st: RigState,
                                              j: nat, c: nat, n: nat)
    requires LoopPre(sc, st, i, parentBone, k) && k <= j < |sc.nodes[i].children| && c < |sc.nodes|
    requires Reaches(sc, sc.nodes[i].children[j], c, n) && sc.nodes[c].skin.Some?
    ensures var r := VisitChildren(sc, i, parentBone, k, depth, st); r.Ok? ==> c in r.value.boneOf
    decreases depth, 0, |sc.nodes[i].children| - k
  {
    if depth != 0 {
      var d: nat := depth - 1;
      var child := sc.nodes[i].children[k];
      var flag := ChildIsConnect(sc, st, i, parentBone, child);
      ChildrenStep(sc, i, parentBone, k, depth, d, st);
      match Visit(sc, child, flag, d, st)
      case Err(_) =>
      case Ok(st1) =>
        if j == k {
          VisitCovers(sc, child, flag, d, st, c, n);
        } else {
          VisitChildrenCovers(sc, i, parentBone, k + 1, depth, st1, j, c, n);
        }
    }
  }

  /** child_is_connect gives a child of `i` the flag FlagOk promises. */
  lemma ChildFlag(sc: Scene, st: RigState, i: nat, parentBone: Option<nat>, child: nat)
    requires ValidScene(sc) && Valid(sc, st) && i < |sc.nodes| && child < |sc.nodes|
    requires sc.nodes[i].skin.Some? ==> i in st.boneOf
    requires parentBone.Some? ==> parentBone.value < |st.bones|
    requires sc.nodes[child].parent == Some(i)
    ensures FlagOk(sc, child, ChildIsConnect(sc, st, i, parentBone, child))
  {
  }

  /** A bone created with the flag FlagOk promises keeps ConnectRule. */
  lemma BoneConnect(sc: Scene, i: nat, connect: bool, st: RigState)
    requires ValidScene(sc) && Valid(sc, st) && i < |sc.nodes| && sc.nodes[i].skin.Some?
    requires FlagOk(sc, i, connect) && ConnectRule(sc, st)
    ensures var made := CreateBone(sc, i, connect, st); made.Ok? ==> ConnectRule(sc, made.value.0)
  {
    var made := CreateBone(sc, i, connect, st);
    if made.Ok? {
      var st1 := made.value.0;
      forall h | 0 <= h < |st1.bones| && st1.bones[h].owner < |sc.nodes|
        ensures FlagOk(sc, st1.bones[h].owner, st1.bones[h].connect)
      {
        if h < |st.bones| {
          assert st1.bones[h] == st1.bones[..|st.bones|][h];
        }
      }
    }
  }

  /** On tree links, a visit with the flag FlagOk promises keeps every bone's
      flag as FlagOk promises. */
  lemma {:induction false} VisitConnect(sc: Scene, i: nat, connect: bool, depth: nat, st: RigState)
    requires ValidScene(sc) && Valid(sc, st) && i < |sc.nodes| && TreeLinks(sc)
    requires FlagOk(sc, i, connect) && ConnectRule(sc, st)
    ensures var r := Visit(sc, i, connect, depth, st); r.Ok? ==> ConnectRule(sc, r.value)
    decreases depth, 1
  {
    VisitStep(sc, i, connect, depth, st);
    if sc.nodes[i].skin.None? {
      VisitChildrenConnect(sc, i, None, 0, depth, st);
    } else {
      var made := CreateBone(sc, i, connect, st);
      if made.Ok? {
        BoneConnect(sc, i, connect, st);
        VisitChildrenConnect(sc, i, made.value.1, 0, depth, made.value.0);
      }
    }
  }

  /** Child `k` of `i` is visited with the flag FlagOk promises, so its visit
      keeps ConnectRule. */
  lemma {:induction false} ConnectChild(sc: Scene, i: nat, parentBone: Option<nat>, k: nat, depth: nat, d: nat, st: RigState)
    requires LoopPre(sc, st, i, parentBone, k) && k < |sc.nodes[i].children| && depth == d + 1
    requires TreeLinks(sc) && ConnectRule(sc, st)
    ensures var child := sc.nodes[i].children[k];
            var v := Visit(sc, child, ChildIsConnect(sc, st, i, parentBone, child), d, st);
            v.Ok? ==> ConnectRule(sc, v.value)
    decreases depth, 0, |sc.nodes[i].children| - k, 0
  {
    var child := sc.nodes[i].children[k];
    assert sc.nodes[child].parent == Some(i);
    ChildFlag(sc, st, i, parentBone, child);
    VisitConnect(sc, child, ChildIsConnect(sc, st, i, parentBone, child), d, st);
  }

  /** The child loop keeps ConnectRule on tree links. */
  lemma {:induction false} VisitChildrenConnect(sc: Scene, i: nat, parentBone: Option<nat>, k: nat, depth: nat, st: RigState)
    requires LoopPre(sc, st, i, parentBone, k) && TreeLinks(sc) && ConnectRule(sc, st)
    ensures var r := VisitChildren(sc, i, parentBone, k, depth, st); r.Ok? ==> ConnectRule(sc, r.value)
    decreases depth, 0, |sc.nodes[i].children| - k, 1
  {
    if k < |sc.nodes[i].children| && depth != 0 {
      var d: nat := depth - 1;
      var child := sc.nodes[i].children[k];
      ConnectChild(sc, i, parentBone, k, depth, d, st);
      ChildrenStep(sc, i, parentBone, k, depth, d, st);
      var v := Visit(sc, child, ChildIsConnect(sc, st, i, parentBone, child), d, st);
      if v.Ok? {
        VisitChildrenConnect(sc, i, parentBone, k + 1, depth, v.value);
      }
    }
  }

  /** Node `i`'s parent, when it is skinned, already has its bone: the state
      a pre-order walk reaches `i` in. */
  predicate ParentReady(sc: Scene, st: RigState, i: nat)
    requires ValidScene(sc) && i < |sc.nodes|
  {
    var p := sc.nodes[i].parent;
    p.Some? && sc.nodes[p.value].skin.Some? ==> p.value in st.boneOf
  }

  /** On tree links, a visit that starts with its parent ready fails only on
      the recursion budget or a leaf with no parent bone: the rig of a parent
      in the same skin always exists, because the parent is visited first. */
  lemma {:induction false} VisitErrors(sc: Scene, i: nat, connect: bool, depth: nat, st: RigState)
    requires ValidScene(sc) && Valid(sc, st) && i < |sc.nodes| && TreeLinks(sc) && ParentReady(sc, st, i)
    ensures var r := Visit(sc, i, connect, depth, st); r.Err? ==> r.error == RecursionLimit || r.error == MissingParentBone
    decreases depth, 1
  {
    VisitStep(sc, i, connect, depth, st);
    if sc.nodes[i].skin.None? {
      VisitChildrenErrors(sc, i, None, 0, depth, st);
    } else {
      var made := CreateBone(sc, i, connect, st);
      if made.Ok? {
        VisitChildrenErrors(sc, i, made.value.1, 0, depth, made.value.0);
      }
    }
  }

  /** The child loop of VisitErrors: every child's parent is `i`, whose bone,
      if any, exists before the loop. */
  lemma {:induction false} VisitChildrenErrors(sc: Scene, i: nat, parentBone: Option<nat>, k: nat, depth: nat, st: RigState)
    requires LoopPre(sc, st, i, parentBone, k) && TreeLinks(sc)
    ensures var r := VisitChildren(sc, i, parentBone, k, depth, st); r.Err? ==> r.error == RecursionLimit || r.error == MissingParentBone
    decreases depth, 0, |sc.nodes[i].children| - k
  {
    if k < |sc.nodes[i].children| && depth != 0 {
      var d: nat := depth - 1;
      var child := sc.nodes[i].children[k];
      var flag := ChildIsConnect(sc, st, i, parentBone, child);
      assert sc.nodes[child].parent == Some(i);
      VisitErrors(sc, child, flag, d, st);
      ChildrenStep(sc, i, parentBone, k, depth, d, st);
      match Visit(sc, child, flag, d, st)
      case Err(_) =>
      case Ok(st1) =>
        VisitChildrenErrors(sc, i, parentBone, k + 1, depth, st1);
    }
  }

  /** Nothing below `i` lies `bound` or more child steps down. */
  ghost predicate Shallow(sc: Scene, i: nat, bound: int)
    requires ValidScene(sc) && i < |sc.nodes|
  {
    forall c: nat, n: nat :: Reaches(sc, i, c, n) ==> n < bound
  }

  /** Every skinned leaf below `i` has a skinned parent, whose bone its tail
      extends. */
  ghost predicate LeavesHang(sc: Scene, i: nat)
    requires ValidScene(sc) && i < |sc.nodes|
  {
    forall c: nat, n: nat :: c < |sc.nodes| && Reaches(sc, i, c, n) && sc.nodes[c].skin.Some? && |sc.nodes[c].children| == 0 ==>
      sc.nodes[c].parent.Some? && sc.nodes[sc.nodes[c].parent.value].skin.Some?
  }

  /** What holds below `i` holds below each of its children, one step less deep. */
  lemma ChildrenInherit(sc: Scene, i: nat, bound: int)
    requires ValidScene(sc) && i < |sc.nodes|
    ensures Shallow(sc, i, bound) ==> forall j :: 0 <= j < |sc.nodes[i].children| ==> Shallow(sc, sc.nodes[i].children[j], bound - 1)
    ensures LeavesHang(sc, i) ==> forall j :: 0 <= j < |sc.nodes[i].children| ==> LeavesHang(sc, sc.nodes[i].children[j])
  {
    forall j, c: nat, n: nat | 0 <= j < |sc.nodes[i].children| && Reaches(sc, sc.nodes[i].children[j], c, n)
      ensures Reaches(sc, i, c, n + 1)
    {
    }
  }

  /** On tree links, a visit from a ready parent, with more budget than the
      height below it and no skinned leaf hanging from an unskinned node,
      succeeds. */
  lemma {:induction false} VisitSucceeds(sc: Scene, i: nat, connect: bool, depth: nat, st: RigState)
    requires ValidScene(sc) && Valid(sc, st) && i < |sc.nodes| && TreeLinks(sc) && ParentReady(sc, st, i)
    requires Shallow(sc, i, depth) && LeavesHang(sc, i)
    ensures Visit(sc, i, connect, depth, st).Ok?
    decreases depth, 1
  {
    VisitStep(sc, i, connect, depth, st);
    ChildrenInherit(sc, i, depth);
    if sc.nodes[i].skin.None? {
      VisitChildrenSucceeds(sc, i, None, 0, depth, st);
    } else {
      assert Reaches(sc, i, i, 0);
      var made := CreateBone(sc, i, connect, st);
      VisitChildrenSucceeds(sc, i, made.value.1, 0, depth, made.value.0);
    }
  }

  /** The child loop of VisitSucceeds. */
  lemma {:induction false} VisitChildrenSucceeds(sc: Scene, i: nat, parentBone: Option<nat>, k: nat, depth: nat, st: RigState)
    requires LoopPre(sc, st, i, parentBone, k) && TreeLinks(sc)
    requires forall j :: k <= j < |sc.nodes[i].children| ==>
               Shallow(sc, sc.nodes[i].children[j], depth - 1) && LeavesHang(sc, sc.nodes[i].children[j])
    ensures VisitChildren(sc, i, parentBone, k, depth, st).Ok?
    decreases depth, 0, |sc.nodes[i].children| - k
  {
    if k < |sc.nodes[i].children| {
      var child := sc.nodes[i].children[k];
      assert Reaches(sc, child, child, 0);
      var d: nat := depth - 1;
      var flag := ChildIsConnect(sc, st, i, parentBone, child);
      assert sc.nodes[child].parent == Some(i);
      VisitSucceeds(sc, child, flag, d, st);
      ChildrenStep(sc, i, parentBone, k, depth, d, st);
      VisitChildrenSucceeds(sc, i, parentBone, k + 1, depth, Visit(sc, child, flag, d, st).value);
    }
  }

  /** The armature pass of load_objects: create_armature on node 0 with
      `is_connect` false. Every bone it creates is well formed (Valid), the
      root's own bone, if node 0 is skinned, is the first and is not connected,
      every skinned node below node 0 gets a bone, and on tree links with a
      parentless node 0 every bone's flag follows child_is_connect's rule. */
  function CreateArmatures(sc: Scene, depth: nat): (r: Result<RigState, ImportError>)
    requires ValidScene(sc) && |sc.nodes| > 0
    ensures r.Ok? ==> Valid(sc, r.value)
    ensures r.Ok? && sc.nodes[0].skin.Some? ==> |r.value.bones| > 0 && r.value.bones[0].owner == 0 && !r.value.bones[0].connect
    ensures r.Ok? ==> forall c: nat, n: nat :: c < |sc.nodes| && Reaches(sc, 0, c, n) && sc.nodes[c].skin.Some? ==>
              c in r.value.boneOf
    ensures r.Ok? && TreeLinks(sc) && sc.nodes[0].parent.None? ==> ConnectRule(sc, r.value)
    ensures r.Err? && TreeLinks(sc) && sc.nodes[0].parent.None? ==> r.error == RecursionLimit || r.error == MissingParentBone
    ensures TreeLinks(sc) && sc.nodes[0].parent.None? && Shallow(sc, 0, depth) && LeavesHang(sc, 0) ==> r.Ok?
  {
    var r := Visit(sc, 0, false, depth, Empty);
    assert r.Ok? ==> forall c: nat, n: nat :: c < |sc.nodes| && Reaches(sc, 0, c, n) && sc.nodes[c].skin.Some? ==>
             c in r.value.boneOf by {
      forall c: nat, n: nat | c < |sc.nodes| && Reaches(sc, 0, c, n) && sc.nodes[c].skin.Some? {
        VisitCovers(sc, 0, false, depth, Empty, c, n);
      }
    }
    assert r.Ok? && TreeLinks(sc) && sc.nodes[0].parent.None? ==> ConnectRule(sc, r.value) by {
      if TreeLinks(sc) && sc.nodes[0].parent.None? {
        VisitConnect(sc, 0, false, depth, Empty);
      }
    }
    assert r.Err? && TreeLinks(sc) && sc.nodes[0].parent.None? ==> r.error == RecursionLimit || r.error == MissingParentBone by {
      if TreeLinks(sc) && sc.nodes[0].parent.None? {
        VisitErrors(sc, 0, false, depth, Empty);
      }
    }
    assert TreeLinks(sc) && sc.nodes[0].parent.None? && Shallow(sc, 0, depth) && LeavesHang(sc, 0) ==> r.Ok? by {
      if TreeLinks(sc) && sc.nodes[0].parent.None? && Shallow(sc, 0, depth) && LeavesHang(sc, 0) {
        VisitSucceeds(sc, 0, false, depth, Empty);
      }
    }
    r
  }
}

=== FILE: gltf_types.dfy ===
/** The already-parsed glTF records the importer consumes, the exceptions it can
    raise, and Python's rule for indexing a list. */
module GltfTypes {
  import opened Wrappers

  /** A glTF node as handed over by the parser. A missing name is the empty
      string; `mesh` and `skin` use -1 for "none"; an absent transform field is
      the empty sequence. */
  datatype GltfNode = GltfNode(
    name: string,
    children: seq<int>,
    mesh: int,
    skin: int,
    translation: seq<real>,
    rotation: seq<real>,
    scale: seq<real>,
    matrix: seq<real>)

  /** A glTF skin: its (possibly empty) name, ordered joint node indices and skeleton root. */
  datatype GltfSkin = GltfSkin(name: string, joints: seq<int>, skeleton: int)

  /** The exceptions that abort an import. */
  datatype ImportError =
    | MultipleSkin          // a node is a joint of two or more skins
    | IndexOutOfRange       // a Python list was indexed out of range
    | RootHasParent         // node 0 was declared as somebody's child
    | RootCheckFailed       // the root check before pruning raised
    | MissingParentRig      // the parent of a reused rig has no armature yet
    | MissingParentBone     // a leaf bone's parent node has no bone
    | RemovedObject         // a scene object was used after its removal
    | ValueNotInList        // `list.remove` found no such element
    | RecursionLimit        // the recursion budget was exhausted

  /** No index occurs twice in `s`. */
  predicate Distinct(s: seq<nat>) {
    forall a, b :: 0 <= a < b < |s| ==> s[a] != s[b]
  }

  /** Python's `xs[i]` for a list of length `n`: negative indices count from the
      end, anything else out of range raises. */
  function PyIndex(n: nat, i: int): (r: Option<nat>)
    ensures r.Some? <==> -(n as int) <= i < n
    ensures r.Some? ==> r.value < n && (r.value == i || r.value == n + i)
  {
    if 0 <= i < n then Some(i)
    else if -(n as int) <= i < 0 then Some(n + i)
    else None
  }
}

=== FILE: hierarchy.dfy ===
/** The node arena load_objects builds (blender_io/node_io.py) and the root check
    load performs before pruning (blender_io/__init__.py). Nodes are addressed by
    their position in the glTF node list. */
module Hierarchy {
  import opened Wrappers
  import opened GltfTypes
  import opened SkinMembership

  /** One node after load_objects: its glTF name, mesh and skin references, its
      links, and the skin that lists it as a joint. */
  datatype Node = Node(
    index: nat,
    name: string,
    mesh: int,
    meshSkin: int,
    parent: Option<nat>,
    children: seq<nat>,
    skin: Option<SkinRef>)

  /** Every child index of every list names a node of an arena of `n` nodes. */
  predicate InArena(ch: seq<seq<nat>>, n: nat) {
    forall p, k :: 0 <= p < |ch| && 0 <= k < |ch[p]| ==> ch[p][k] < n
  }

  /** `nodes[child_index]` for each declared child index, in order; `None` when
      one of them is out of range. */
  function ResolveChildren(n: nat, decl: seq<int>): (r: Option<seq<nat>>)
    ensures r.Some? <==> forall k :: 0 <= k < |decl| ==> PyIndex(n, decl[k]).Some?
    ensures r.Some? ==> && |r.value| == |decl|
                        && forall k :: 0 <= k < |decl| ==> PyIndex(n, decl[k]) == Some(r.value[k])
  {
    if decl == [] then Some([])
    else
      match PyIndex(n, decl[0])
      case None => None
      case Some(c) =>
        match ResolveChildren(n, decl[1..])
        case None => None
        case Some(rest) => Some([c] + rest)
  }

  /** The resolved child lists of nodes `from` onwards. */
  function ResolveAll(nodes: seq<GltfNode>, from: nat): (r: Option<seq<seq<nat>>>)
    requires from <= |nodes|
    ensures r.Some? <==> forall i :: from <= i < |nodes| ==> ResolveChildren(|nodes|, nodes[i].children).Some?
    ensures r.Some? ==> && |r.value| == |nodes| - from && InArena(r.value, |nodes|)
                        && forall i :: from <= i < |nodes| ==>
                             ResolveChildren(|nodes|, nodes[i].children) == Some(r.value[i - from])
    decreases |nodes| - from
  {
    if from == |nodes| then Some([])
    else
      match ResolveChildren(|nodes|, nodes[from].children)
      case None => None
      case Some(c) =>
        match ResolveAll(nodes, from + 1)
        case None => None
        case Some(rest) => Some([c] + rest)
  }

  /** The skin of every node from `from` onwards, as Node.__init__ resolves it;
      the first node listed by two skins aborts. */
  function AllNodeSkins(skins: seq<GltfSkin>, n: nat, from: nat): (r: Result<seq<Option<SkinRef>>, ImportError>)
    requires from <= n
    ensures r.Err? <==> exists i :: from <= i < n && NodeSkin(skins, i).Err?
    ensures r.Err? ==> r.error == MultipleSkin
    ensures r.Ok? ==> && |r.value| == n - from
                      && forall i :: from <= i < n ==> NodeSkin(skins, i) == Ok(r.value[i - from])
    decreases n - from
  {
    if from == n then Ok([])
    else
      match NodeSkin(skins, from)
      case Err(e) => Err(e)
      case Ok(s) =>
        match AllNodeSkins(skins, n, from + 1)
        case Err(e) => Err(e)
        case Ok(rest) => Ok([s] + rest)
  }

  /** Node `c` appears in the child list of node `p`, and of no later node. */
  predicate DeclaredParent(ch: seq<seq<nat>>, c: nat, p: nat) {
    p < |ch| && c in ch[p] && forall q :: p < q < |ch| ==> c !in ch[q]
  }

  /** No node lists `c` as a child. */
  predicate Undeclared(ch: seq<seq<nat>>, c: nat) {
    forall p :: 0 <= p < |ch| ==> c !in ch[p]
  }

  /** The last of the first `upto` nodes that lists `c` as a child. */
  ghost function LastDeclarer(ch: seq<seq<nat>>, c: nat, upto: nat): Option<nat>
    requires upto <= |ch|
  {
    if upto == 0 then None
    else if c in ch[upto - 1] then Some(upto - 1)
    else LastDeclarer(ch, c, upto - 1)
  }

  lemma {:induction false} LastDeclarerMeaning(ch: seq<seq<nat>>, c: nat, upto: nat)
    requires upto <= |ch|
    ensures LastDeclarer(ch, c, upto).None? ==> forall q :: 0 <= q < upto ==> c !in ch[q]
    ensures LastDeclarer(ch, c, upto).Some? ==>
              var p := LastDeclarer(ch, c, upto).value;
              p < upto && c in ch[p] && forall q :: p < q < upto ==> c !in ch[q]
  {
    if upto > 0 && c !in ch[upto - 1] {
      LastDeclarerMeaning(ch, c, upto - 1);
    }
  }

  /** The "set parents" loop of load_objects: every node's declared children get
      it as their parent, node by node, so the node declaring a child last wins. */
  method Link(ch: seq<seq<nat>>) returns (parents: seq<Option<nat>>)
    requires InArena(ch, |ch|)
    ensures |parents| == |ch|
    ensures forall c :: 0 <= c < |ch| ==> (parents[c].None? <==> Undeclared(ch, c))
    ensures forall c :: 0 <= c < |ch| && parents[c].Some? ==> DeclaredParent(ch, c, parents[c].value)
  {
    parents := seq(|ch|, _ => None);
    var p := 0;
    while p < |ch|
      invariant 0 <= p <= |ch| && |parents| == |ch|
      invariant forall c :: 0 <= c < |ch| ==> parents[c] == LastDeclarer(ch, c, p)
    {
      var j := 0;
      while j < |ch[p]|
        invariant 0 <= j <= |ch[p]| && |parents| == |ch|
        invariant forall c :: 0 <= c < |ch| ==>
                    parents[c] == if c in ch[p][..j] then Some(p) else LastDeclarer(ch, c, p)
      {
        assert ch[p][..j + 1] == ch[p][..j] + [ch[p][j]];
        parents := parents[ch[p][j] := Some(p)];
        j := j + 1;
      }
      assert ch[p][..j] == ch[p];
      p := p + 1;
    }
    forall c | 0 <= c < |ch|
      ensures parents[c].None? <==> Undeclared(ch, c)
      ensures parents[c].Some? ==> DeclaredParent(ch, c, parents[c].value)
    {
      LastDeclarerMeaning(ch, c, |ch|);
    }
  }

  /** load_objects up to the object creation: build every node with its skin,
      link parents and children, and insist that node 0 is nobody's child. */
  method LoadObjects(gltf: seq<GltfNode>, skins: seq<GltfSkin>) returns (r: Result<seq<Node>, ImportError>)
    ensures r.Err? <==> || (exists i :: 0 <= i < |gltf| && NodeSkin(skins, i).Err?)
                        || (exists i :: 0 <= i < |gltf| && ResolveChildren(|gltf|, gltf[i].children).None?)
                        || |gltf| == 0
                        || (ResolveAll(gltf, 0).Some? && !Undeclared(ResolveAll(gltf, 0).value, 0))
    ensures r == Err(MultipleSkin) <==> exists i :: 0 <= i < |gltf| && NodeSkin(skins, i).Err?
    ensures r.Ok? ==> |r.value| == |gltf| > 0 && r.value[0].parent.None?
    ensures r.Ok? ==> forall i :: 0 <= i < |gltf| ==>
              var node := r.value[i];
              && node.index == i && node.name == gltf[i].name
              && node.mesh == gltf[i].mesh && node.meshSkin == gltf[i].skin
              && NodeSkin(skins, i) == Ok(node.skin)
              && ResolveChildren(|gltf|, gltf[i].children) == Some(node.children)
    ensures r.Ok? ==> forall c :: 0 <= c < |gltf| ==>
              var ch := seq(|gltf|, i requires 0 <= i < |gltf| => r.value[i].children);
              && (r.value[c].parent.None? <==> Undeclared(ch, c))
              && (r.value[c].parent.Some? ==> DeclaredParent(ch, c, r.value[c].parent.value))
  {
    var nodeSkins := AllNodeSkins(skins, |gltf|, 0);
    if nodeSkins.Err? {
      return Err(MultipleSkin);
    }
    var resolved := ResolveAll(gltf, 0);
    if resolved.None? {
      return Err(IndexOutOfRange);
    }
    var ch := resolved.value;
    var parents := Link(ch);
    if |gltf| == 0 {
      return Err(IndexOutOfRange);
    }
    if parents[0].Some? {
      return Err(RootHasParent);
    }
    var nodes := seq(|gltf|, i requires 0 <= i < |gltf| =>
      Node(i, gltf[i].name, gltf[i].mesh, gltf[i].skin, parents[i], ch[i], nodeSkins.value[i]));
    assert seq(|gltf|, i requires 0 <= i < |gltf| => nodes[i].children) == ch;
    r := Ok(nodes);
  }

  /** The indices of the parentless nodes, in order: `roots` in load. */
  function Roots(parents: seq<Option<nat>>, from: nat): (r: seq<nat>)
    requires from <= |parents|
    ensures forall k :: 0 <= k < |r| ==> from <= r[k] < |parents| && parents[r[k]].None?
    ensures forall c :: from <= c < |parents| && parents[c].None? ==> c in r
    ensures forall k, l :: 0 <= k < l < |r| ==> r[k] < r[l]
    decreases |parents| - from
  {
    if from == |parents| then []
    else if parents[from].None? then [from] + Roots(parents, from + 1)
    else Roots(parents, from + 1)
  }

  /** Node `c` passes the root check as written: it is parentless, and it is
      either the only parentless node or node 0. */
  predicate Accepted(parents: seq<Option<nat>>, c: nat) {
    && c < |parents| && parents[c].None?
    && ((forall d :: 0 <= d < |parents| && parents[d].None? ==> d == c) || c == 0)
  }

  /** The first root precedes every other parentless node. */
  lemma FirstRootIsLeast(parents: seq<Option<nat>>, c: nat)
    requires c < |parents| && parents[c].None?
    ensures |Roots(parents, 0)| > 0 && Roots(parents, 0)[0] <= c
  {
    var roots := Roots(parents, 0);
    var k :| 0 <= k < |roots| && roots[k] == c;
    assert k == 0 || roots[0] < roots[k];
  }

  /** Two roots, the first not node 0: nothing is accepted. */
  lemma NoneAccepted(parents: seq<Option<nat>>)
    requires |Roots(parents, 0)| > 1 && Roots(parents, 0)[0] != 0
    ensures forall c :: !Accepted(parents, c)
  {
    var roots := Roots(parents, 0);
    forall c | 0 <= c < |parents| && parents[c].None? ensures roots[0] <= c {
      FirstRootIsLeast(parents, c);
    }
    assert roots[0] < roots[1] < |parents| && parents[roots[1]].None?;
  }

  /** One root, or node 0 first: the first root is accepted. */
  lemma FirstAccepted(parents: seq<Option<nat>>)
    requires |Roots(parents, 0)| == 1 || (|Roots(parents, 0)| > 0 && Roots(parents, 0)[0] == 0)
    ensures Accepted(parents, Roots(parents, 0)[0])
  {
    var roots := Roots(parents, 0);
    assert roots[0] in roots;
    if |roots| == 1 {
      forall d | 0 <= d < |parents| && parents[d].None? ensures d == roots[0] {
        assert d in roots;
      }
    }
  }

  /** The root check of load, as written with `and`: it passes when there is
      exactly one parentless node, and also whenever the first parentless node
      is node 0, however many others there are. With no parentless node at all
      `roots[0]` raises. The pruner starts from the node it returns. */
  function RootCheck(parents: seq<Option<nat>>): (r: Result<nat, ImportError>)
    ensures r.Ok? <==> exists c :: Accepted(parents, c)
    ensures r.Ok? ==> && Accepted(parents, r.value)
                      && forall d :: 0 <= d < r.value ==> parents[d].Some?
  {
    var roots := Roots(parents, 0);
    if |roots| == 0 then
      assert forall c :: 0 <= c < |parents| && parents[c].None? ==> c in roots;
      Err(IndexOutOfRange)
    else if |roots| != 1 && roots[0] != 0 then
      NoneAccepted(parents);
      Err(RootCheckFailed)
    else
      FirstAccepted(parents);
      assert forall d :: 0 <= d < |parents| && parents[d].None? ==> roots[0] <= d by {
        forall d | 0 <= d < |parents| && parents[d].None? ensures roots[0] <= d { FirstRootIsLeast(parents, d); }
      }
      Ok(roots[0])
  }

  function ParentsOf(nodes: seq<Node>): (parents: seq<Option<nat>>)
    ensures |parents| == |nodes| && forall i :: 0 <= i < |nodes| ==> parents[i] == nodes[i].parent
  {
    seq(|nodes|, i requires 0 <= i < |nodes| => nodes[i].parent)
  }

  /** After a successful load_objects the root check can no longer fail: node 0
      is parentless, so it is the first root and pruning starts from it. */
  lemma RootCheckAfterLoad(nodes: seq<Node>)
    requires |nodes| > 0 && nodes[0].parent.None?
    ensures RootCheck(ParentsOf(nodes)) == Ok(0)
  {
    RootCheckFirstIsRoot(ParentsOf(nodes));
  }

  /** Whenever node 0 has no parent, the check passes and picks node 0,
      however many other parentless nodes there are. */
  lemma RootCheckFirstIsRoot(parents: seq<Option<nat>>)
    requires |parents| > 0 && parents[0].None?
    ensures RootCheck(parents) == Ok(0)
  {
    var roots := Roots(parents, 0);
    assert 0 in roots;
  }
}

=== FILE: naming.dfy ===
/** Node and bone naming: a node without a name is called after its index,
    `'_%03d' % index` (blender_io/node_io.py, create_object and create_armature). */
module Naming {

  predicate IsDigit(c: char) {
    '0' <= c <= '9'
  }

  predicate AllDigits(s: string) {
    forall k :: 0 <= k < |s| ==> IsDigit(s[k])
  }

  function DigitChar(d: nat): (c: char)
    requires d < 10
    ensures IsDigit(c)
  {
    ('0' as int + d) as char
  }

  function DigitValue(c: char): (d: nat)
    requires IsDigit(c)
    ensures d < 10
  {
    (c as int - '0' as int) as nat
  }

  /** The shortest decimal spelling of `n`, as `%d` prints it. */
  function Decimal(n: nat): (s: string)
    ensures 1 <= |s| && AllDigits(s)
    ensures |s| > 1 ==> s[0] != '0'
    decreases n
  {
    if n < 10 then [DigitChar(n)] else Decimal(n / 10) + [DigitChar(n % 10)]
  }

  /** The value of a string of decimal digits; the reference reading of `%d`. */
  function ParseDecimal(s: string): nat
    requires AllDigits(s)
  {
    if s == [] then 0 else ParseDecimal(s[..|s| - 1]) * 10 + DigitValue(s[|s| - 1])
  }

  function Zeros(k: nat): (z: string)
    ensures |z| == k && AllDigits(z)
  {
    seq(k, _ => '0')
  }

  /** `%0<width>d` padding: zeros in front up to `width` characters, never truncating. */
  function ZeroPad(s: string, width: nat): (r: string)
    requires AllDigits(s)
    ensures AllDigits(r)
    ensures |r| == if |s| >= width then |s| else width
    ensures exists k: nat :: r == Zeros(k) + s
  {
    if |s| >= width then
      assert s == Zeros(0) + s;
      s
    else
      Zeros(width - |s|) + s
  }

  /** `'_%03d' % index`. */
  function FallbackName(index: nat): string {
    "_" + ZeroPad(Decimal(index), 3)
  }

  /** The name create_object and create_armature give a node: its own name, or
      `_` and its index padded to at least three digits when it has none. The
      result is the canonical spelling: it reads back as the index, and is padded
      no further than three digits. */
  function NodeName(name: string, index: nat): (r: string)
    ensures |name| > 0 ==> r == name
    ensures |name| == 0 ==> && |r| >= 4 && r[0] == '_' && AllDigits(r[1..])
                            && ParseDecimal(r[1..]) == index
                            && (|r| > 4 ==> r[1] != '0')
  {
    if |name| > 0 then name
    else
      FallbackNameReadsBack(index);
      FallbackName(index)
  }

  lemma {:induction false} ParseZeros(k: nat)
    ensures ParseDecimal(Zeros(k)) == 0
  {
    if k > 0 {
      assert Zeros(k)[..k - 1] == Zeros(k - 1);
      ParseZeros(k - 1);
    }
  }

  /** Leading zeros do not change a decimal's value. */
  lemma {:induction false} ParseIgnoresLeadingZeros(k: nat, s: string)
    requires AllDigits(s)
    ensures ParseDecimal(Zeros(k) + s) == ParseDecimal(s)
    decreases |s|
  {
    if s == [] {
      assert Zeros(k) + s == Zeros(k);
      ParseZeros(k);
    } else {
      var t := Zeros(k) + s;
      assert t[..|t| - 1] == Zeros(k) + s[..|s| - 1];
      ParseIgnoresLeadingZeros(k, s[..|s| - 1]);
    }
  }

  /** `%d` and its reading are inverse. */
  lemma {:induction false} DecimalRoundTrip(n: nat)
    ensures ParseDecimal(Decimal(n)) == n
    decreases n
  {
    if n >= 10 {
      var s := Decimal(n);
      assert s[..|s| - 1] == Decimal(n / 10);
      DecimalRoundTrip(n / 10);
    }
  }

  /** The fallback name reads back as the index and is padded to at least three digits. */
  lemma FallbackNameReadsBack(index: nat)
    ensures |FallbackName(index)| >= 4 && FallbackName(index)[0] == '_'
    ensures AllDigits(FallbackName(index)[1..])
    ensures ParseDecimal(FallbackName(index)[1..]) == index
    ensures |FallbackName(index)| > 4 ==> FallbackName(index)[1] != '0'
  {
    var d := Decimal(index);
    var p := ZeroPad(d, 3);
    var k: nat :| p == Zeros(k) + d;
    assert FallbackName(index)[1..] == p;
    ParseIgnoresLeadingZeros(k, d);
    DecimalRoundTrip(index);
    if |p| > 3 {
      assert p == d;
    }
  }

  /** Distinct nameless nodes get distinct fallback names. */
  lemma FallbackNameInjective(i: nat, j: nat)
    requires FallbackName(i) == FallbackName(j)
    ensures i == j
  {
    FallbackNameReadsBack(i);
    FallbackNameReadsBack(j);
  }

  /** Indices below 1000 get exactly three digits, e.g. `_007`. */
  lemma {:induction false} FallbackNameWidth(index: nat)
    requires index < 1000
    ensures |FallbackName(index)| == 4
  {
    DecimalShort(index);
  }

  lemma {:induction false} DecimalShort(n: nat)
    requires n < 1000
    ensures |Decimal(n)| <= 3
  {
    if n >= 10 {
      DecimalShort(n / 10);
      if n / 10 >= 10 {
        assert n / 100 < 10;
      }
    }
  }
}

=== FILE: prune_spec.dfy ===
/** What remove_empty computes on a well-formed tree (blender_io/__init__.py):
    a reference definition of which nodes survive, and proofs that the
    arena-level pruner of module Pruner removes exactly the others, keeps the
    surviving siblings in order, leaves only non-empty nodes, and changes
    nothing when run a second time. */
module PruneSpec {
  import opened Wrappers
  import opened GltfTypes
  import opened Pruner
  import Hierarchy

  /** The linked child lists `ch` form a forest consistent with the parents:
      every listed child names its lister as parent, every node with a parent
      is listed by it exactly once, and `rank` strictly decreases from a parent
      to its children (so there is no cycle). */
  predicate IsTree(sc: Scene, ch: seq<seq<nat>>, rank: seq<nat>) {
    && ValidScene(sc) && |ch| == |sc.parent| && |rank| == |sc.parent|
    && (forall p, k :: 0 <= p < |ch| && 0 <= k < |ch[p]| ==> ch[p][k] < |sc.parent| && sc.parent[ch[p][k]] == Some(p))
    && (forall c :: 0 <= c < |sc.parent| && sc.parent[c].Some? ==>
          c in ch[sc.parent[c].value] && rank[c] < rank[sc.parent[c].value])
    && (forall p :: 0 <= p < |ch| ==> Distinct(ch[p]))
  }

  /** Node `x` is `i` or lies below it. */
  predicate Desc(sc: Scene, ch: seq<seq<nat>>, rank: seq<nat>, x: nat, i: nat)
    requires IsTree(sc, ch, rank) && x < |sc.parent| && i < |sc.parent|
    decreases if rank[x] < rank[i] then rank[i] - rank[x] else 0
  {
    x == i || (rank[x] < rank[i] && sc.parent[x].Some? && Desc(sc, ch, rank, sc.parent[x].value, i))
  }

  lemma {:induction false} DescRank(sc: Scene, ch: seq<seq<nat>>, rank: seq<nat>, x: nat, i: nat)
    requires IsTree(sc, ch, rank) && x < |sc.parent| && i < |sc.parent| && Desc(sc, ch, rank, x, i)
    ensures rank[x] <= rank[i] && (x != i ==> rank[x] < rank[i])
  {
  }

  /** A child's descendants are proper descendants of its parent. */
  lemma {:induction false} DescOfChild(sc: Scene, ch: seq<seq<nat>>, rank: seq<nat>, x: nat, c: nat, i: nat)
    requires IsTree(sc, ch, rank) && x < |sc.parent| && c < |sc.parent| && i < |sc.parent|
    requires sc.parent[c] == Some(i) && Desc(sc, ch, rank, x, c)
    ensures Desc(sc, ch, rank, x, i) && x != i
    decreases if rank[x] < rank[c] then rank[c] - rank[x] else 0
  {
    DescRank(sc, ch, rank, x, c);
    if x != c {
      DescOfChild(sc, ch, rank, sc.parent[x].value, c, i);
    }
  }

  /** The child of `i` on the way up from its proper descendant `x`. */
  function Top(sc: Scene, ch: seq<seq<nat>>, rank: seq<nat>, x: nat, i: nat): (t: nat)
    requires IsTree(sc, ch, rank) && x < |sc.parent| && i < |sc.parent|
    requires Desc(sc, ch, rank, x, i) && x != i
    ensures t < |sc.parent| && sc.parent[t] == Some(i) && t in ch[i] && Desc(sc, ch, rank, x, t)
    decreases rank[i] - rank[x]
  {
    var p := sc.parent[x].value;
    if p == i then x
    else
      var t := Top(sc, ch, rank, p, i);
      assert Desc(sc, ch, rank, x, t) by { DescRank(sc, ch, rank, p, t); }
      t
  }

  /** The only child of `i` above a node is the one Top finds. */
  lemma {:induction false} TopUnique(sc: Scene, ch: seq<seq<nat>>, rank: seq<nat>, x: nat, c: nat, i: nat)
    requires IsTree(sc, ch, rank) && x < |sc.parent| && c < |sc.parent| && i < |sc.parent|
    requires sc.parent[c] == Some(i) && Desc(sc, ch, rank, x, c)
    ensures Desc(sc, ch, rank, x, i) && x != i && Top(sc, ch, rank, x, i) == c
    decreases if rank[x] < rank[c] then rank[c] - rank[x] else 0
  {
    DescOfChild(sc, ch, rank, x, c, i);
    if x != c {
      var p := sc.parent[x].value;
      if p == i {
        DescRank(sc, ch, rank, p, c);
        assert false;
      }
      TopUnique(sc, ch, rank, p, c, i);
    }
  }

  /** The reference pruning rule: a node survives when it has an armature, has
      object data, or has a surviving child. */
  predicate Survives(sc: Scene, ch: seq<seq<nat>>, rank: seq<nat>, x: nat)
    requires IsTree(sc, ch, rank) && x < |sc.parent|
    decreases rank[x]
  {
    || sc.hasArmature[x] || sc.hasData[x]
    || exists k :: 0 <= k < |ch[x]| && Survives(sc, ch, rank, ch[x][k])
  }

  /** The nodes that survive. */
  function Alive(sc: Scene, ch: seq<seq<nat>>, rank: seq<nat>): (r: set<nat>)
    requires IsTree(sc, ch, rank)
    ensures forall x: nat :: x in r <==> x < |sc.parent| && Survives(sc, ch, rank, x)
  {
    set x: nat | x < |sc.parent| && Survives(sc, ch, rank, x)
  }

  /** The entries of `s` that are in `keep`, in their order. */
  function Filter(s: seq<nat>, keep: set<nat>): (r: seq<nat>)
    ensures forall y :: y in r <==> y in s && y in keep
  {
    if s == [] then []
    else (if s[0] in keep then [s[0]] else []) + Filter(s[1..], keep)
  }

  /** The child list node `x` should have after pruning. */
  function Kept(sc: Scene, ch: seq<seq<nat>>, rank: seq<nat>, x: nat): (r: seq<nat>)
    requires IsTree(sc, ch, rank) && x < |sc.parent|
    ensures forall y :: y in r <==> y in ch[x] && Survives(sc, ch, rank, y)
  {
    Filter(ch[x], Alive(sc, ch, rank))
  }

  /** A node survives exactly when it has an armature, data, or a kept child. */
  lemma SurvivesIffKept(sc: Scene, ch: seq<seq<nat>>, rank: seq<nat>, x: nat)
    requires IsTree(sc, ch, rank) && x < |sc.parent|
    ensures Survives(sc, ch, rank, x) <==>
              sc.hasArmature[x] || sc.hasData[x] || |Kept(sc, ch, rank, x)| > 0
  {
    var kept := Kept(sc, ch, rank, x);
    if |kept| > 0 {
      assert kept[0] in kept;
    }
    if exists k :: 0 <= k < |ch[x]| && Survives(sc, ch, rank, ch[x][k]) {
      var k :| 0 <= k < |ch[x]| && Survives(sc, ch, rank, ch[x][k]);
      assert ch[x][k] in kept;
    }
  }

  /** Unfolding the filter one element from the front of a suffix. */
  lemma FilterSuffix(s: seq<nat>, keep: set<nat>, k: nat)
    requires 0 < k <= |s|
    ensures Filter(s[k - 1..], keep) == (if s[k - 1] in keep then [s[k - 1]] else []) + Filter(s[k..], keep)
  {
    assert s[k - 1..][1..] == s[k..];
  }

  /** One visit of the loop on a parent's own list: with the positions from
      `k` on already filtered, the entry at `k - 1` stays when kept and is
      cut out of its place otherwise. */
  lemma CutVisited(s: seq<nat>, keep: set<nat>, k: nat, cur: seq<nat>)
    requires Distinct(s) && 0 < k <= |s| && cur == s[..k] + Filter(s[k..], keep)
    ensures s[k - 1] in cur
    ensures (if s[k - 1] in keep then cur else RemoveFirst(cur, s[k - 1])) == s[..k - 1] + Filter(s[k - 1..], keep)
  {
    var c := s[k - 1];
    FilterSuffix(s, keep, k);
    var f := Filter(s[k..], keep);
    assert s[..k] == s[..k - 1] + [c];
    assert cur[k - 1] == c;
    if c !in keep {
      assert cur[..k - 1] == s[..k - 1];
      assert c !in s[..k - 1];
      RemoveFirstAt(cur, c, k - 1);
      assert cur[k..] == f;
    }
  }

  function IndexOf(s: seq<nat>, x: nat): (r: nat)
    requires x in s
    ensures r < |s| && s[r] == x && x !in s[..r]
  {
    if s[0] == x then 0
    else
      var r := IndexOf(s[1..], x) + 1;
      assert s[..r] == [s[0]] + s[1..][..r - 1];
      r
  }

  /** The subtree of `i` is as linked and nothing in it is removed. */
  predicate Untouched(sc: Scene, ch: seq<seq<nat>>, rank: seq<nat>, st: PruneState, i: nat)
    requires IsTree(sc, ch, rank) && ValidState(sc, st) && i < |sc.parent|
  {
    forall x :: 0 <= x < |sc.parent| && Desc(sc, ch, rank, x, i) ==> st.children[x] == ch[x] && x !in st.removed
  }

  /** The child list of `x` while remove_empty(i) is in its loop with `k`
      positions still to visit: the subtrees at positions `k` and later are done. */
  function MidChildren(sc: Scene, ch: seq<seq<nat>>, rank: seq<nat>, st0: PruneState, i: nat, k: nat, x: nat): (r: seq<nat>)
    requires IsTree(sc, ch, rank) && ValidState(sc, st0) && i < |sc.parent| && x < |sc.parent| && k <= |ch[i]|
    ensures forall j :: 0 <= j < |r| ==> r[j] < |sc.parent|
  {
    var r :=
      if x == i then ch[i][..k] + Filter(ch[i][k..], Alive(sc, ch, rank))
      else if Desc(sc, ch, rank, x, i) then
        if IndexOf(ch[i], Top(sc, ch, rank, x, i)) < k then ch[x] else Kept(sc, ch, rank, x)
      else st0.children[x];
    assert forall j :: 0 <= j < |r| ==> r[j] < |sc.parent| by {
      forall j | 0 <= j < |r|
        ensures r[j] < |sc.parent|
      {
        if x == i || Desc(sc, ch, rank, x, i) {
          assert r[j] in r;
          var p := if x == i then i else x;
          assert r[j] in ch[p];
          var m :| 0 <= m < |ch[p]| && ch[p][m] == r[j];
        }
      }
    }
    r
  }

  /** The nodes removed so far by that loop. */
  function DeadFrom(sc: Scene, ch: seq<seq<nat>>, rank: seq<nat>, i: nat, k: nat): set<nat>
    requires IsTree(sc, ch, rank) && i < |sc.parent| && k <= |ch[i]|
  {
    set x: nat | && x < |sc.parent| && x != i && Desc(sc, ch, rank, x, i)
                 && IndexOf(ch[i], Top(sc, ch, rank, x, i)) >= k && !Survives(sc, ch, rank, x)
  }

  /** The whole state at that point of the loop. */
  function MidState(sc: Scene, ch: seq<seq<nat>>, rank: seq<nat>, st0: PruneState, i: nat, k: nat): (r: PruneState)
    requires IsTree(sc, ch, rank) && ValidState(sc, st0) && i < |sc.parent| && k <= |ch[i]|
    ensures ValidState(sc, r)
  {
    PruneState(seq(|sc.parent|, x requires 0 <= x < |sc.parent| => MidChildren(sc, ch, rank, st0, i, k, x)),
               st0.removed + DeadFrom(sc, ch, rank, i, k))
  }

  /** The child list of `x` once remove_empty(i) has returned. */
  function AfterChildren(sc: Scene, ch: seq<seq<nat>>, rank: seq<nat>, st0: PruneState, i: nat, x: nat): (r: seq<nat>)
    requires IsTree(sc, ch, rank) && ValidState(sc, st0) && i < |sc.parent| && x < |sc.parent|
    ensures forall j :: 0 <= j < |r| ==> r[j] < |sc.parent|
  {
    if Desc(sc, ch, rank, x, i) then
      var r := Kept(sc, ch, rank, x);
      assert forall j :: 0 <= j < |r| ==> r[j] < |sc.parent| by {
        forall j | 0 <= j < |r|
          ensures r[j] < |sc.parent|
        {
          assert r[j] in r;
          var m :| 0 <= m < |ch[x]| && ch[x][m] == r[j];
        }
      }
      r
    else if Some(x) == sc.parent[i] && !Survives(sc, ch, rank, i) && i in st0.children[x] then
      var r := RemoveFirst(st0.children[x], i);
      assert forall j :: 0 <= j < |r| ==> r[j] in st0.children[x];
      r
    else st0.children[x]
  }

  /** The nodes of the subtree of `i` that do not survive. */
  function Dead(sc: Scene, ch: seq<seq<nat>>, rank: seq<nat>, i: nat): set<nat>
    requires IsTree(sc, ch, rank) && i < |sc.parent|
  {
    set x: nat | x < |sc.parent| && Desc(sc, ch, rank, x, i) && !Survives(sc, ch, rank, x)
  }

  /** The whole state once remove_empty(i) has returned. */
  function AfterState(sc: Scene, ch: seq<seq<nat>>, rank: seq<nat>, st0: PruneState, i: nat): (r: PruneState)
    requires IsTree(sc, ch, rank) && ValidState(sc, st0) && i < |sc.parent|
    ensures ValidState(sc, r)
  {
    PruneState(seq(|sc.parent|, x requires 0 <= x < |sc.parent| => AfterChildren(sc, ch, rank, st0, i, x)),
               st0.removed + Dead(sc, ch, rank, i))
  }

  /** Before the loop starts, an untouched state is the picture with every
      position still to visit. */
  lemma InitialMid(sc: Scene, ch: seq<seq<nat>>, rank: seq<nat>, i: nat, st: PruneState)
    requires IsTree(sc, ch, rank) && ValidState(sc, st) && i < |sc.parent|
    requires Untouched(sc, ch, rank, st, i)
    ensures MidState(sc, ch, rank, st, i, |ch[i]|) == st
  {
    var m := MidState(sc, ch, rank, st, i, |ch[i]|);
    forall x | 0 <= x < |sc.parent|
      ensures m.children[x] == st.children[x]
    {
      if x == i {
        assert Desc(sc, ch, rank, i, i);
        assert ch[i][..|ch[i]|] == ch[i] && ch[i][|ch[i]|..] == [];
      } else if Desc(sc, ch, rank, x, i) {
        assert IndexOf(ch[i], Top(sc, ch, rank, x, i)) < |ch[i]|;
      }
    }
    assert m.children == st.children;
    assert DeadFrom(sc, ch, rank, i, |ch[i]|) == {};
  }

  /** When the loop is over, every node of the subtree has its kept children. */
  lemma FinalMid(sc: Scene, ch: seq<seq<nat>>, rank: seq<nat>, i: nat, st: PruneState, x: nat)
    requires IsTree(sc, ch, rank) && ValidState(sc, st) && i < |sc.parent| && x < |sc.parent|
    ensures MidState(sc, ch, rank, st, i, 0).children[x] ==
              if Desc(sc, ch, rank, x, i) then Kept(sc, ch, rank, x) else st.children[x]
  {
    if x == i {
      assert ch[i][..0] == [] && ch[i][0..] == ch[i];
    }
  }

  /** The tail of remove_empty(i) on a node that survives keeps it. */
  lemma SettleKeeps(sc: Scene, ch: seq<seq<nat>>, rank: seq<nat>, i: nat, st: PruneState)
    requires IsTree(sc, ch, rank) && ValidState(sc, st) && i < |sc.parent|
    requires Untouched(sc, ch, rank, st, i) && Survives(sc, ch, rank, i)
    ensures Settle(sc, i, MidState(sc, ch, rank, st, i, 0)) == Ok(AfterState(sc, ch, rank, st, i))
  {
    var m := MidState(sc, ch, rank, st, i, 0);
    assert Desc(sc, ch, rank, i, i);
    FinalMid(sc, ch, rank, i, st, i);
    SurvivesIffKept(sc, ch, rank, i);
    assert i !in m.removed;
    assert Settle(sc, i, m) == Ok(m);
    SurvivorMidIsAfter(sc, ch, rank, i, st);
  }

  /** For a surviving node, the picture at the end of its loop is already the
      final one. */
  lemma SurvivorMidIsAfter(sc: Scene, ch: seq<seq<nat>>, rank: seq<nat>, i: nat, st: PruneState)
    requires IsTree(sc, ch, rank) && ValidState(sc, st) && i < |sc.parent| && Survives(sc, ch, rank, i)
    ensures MidState(sc, ch, rank, st, i, 0) == AfterState(sc, ch, rank, st, i)
  {
    var m := MidState(sc, ch, rank, st, i, 0);
    var a := AfterState(sc, ch, rank, st, i);
    forall x | 0 <= x < |sc.parent|
      ensures m.children[x] == a.children[x]
    {
      FinalMid(sc, ch, rank, i, st, x);
    }
    assert m.children == a.children;
    DeadSplit(sc, ch, rank, i);
  }

  /** The dead nodes of a subtree are those below its children, plus its root
      when that does not survive. */
  lemma DeadSplit(sc: Scene, ch: seq<seq<nat>>, rank: seq<nat>, i: nat)
    requires IsTree(sc, ch, rank) && i < |sc.parent|
    ensures Dead(sc, ch, rank, i) == DeadFrom(sc, ch, rank, i, 0) + if Survives(sc, ch, rank, i) then {} else {i}
  {
    assert Desc(sc, ch, rank, i, i);
  }

  /** The tail of remove_empty on an empty node its parent still lists: the
      node is removed and cut from that list. */
  lemma SettleCuts(sc: Scene, i: nat, m: PruneState)
    requires ValidScene(sc) && ValidState(sc, m) && i < |sc.parent|
    requires |m.children[i]| == 0 && !sc.hasArmature[i] && !sc.hasData[i] && i !in m.removed
    requires sc.parent[i].Some? ==> i in m.children[sc.parent[i].value]
    ensures var children := if sc.parent[i].Some? then
              m.children[sc.parent[i].value := RemoveFirst(m.children[sc.parent[i].value], i)] else m.children;
            Settle(sc, i, m) == Ok(PruneState(children, m.removed + {i}))
  {
  }

  /** The tail of remove_empty(i) on a node that does not survive removes it
      and takes it out of its parent's list. */
  lemma SettleDrops(sc: Scene, ch: seq<seq<nat>>, rank: seq<nat>, i: nat, st: PruneState)
    requires IsTree(sc, ch, rank) && ValidState(sc, st) && i < |sc.parent|
    requires Untouched(sc, ch, rank, st, i) && !Survives(sc, ch, rank, i)
    requires sc.parent[i].Some? ==> i in st.children[sc.parent[i].value]
    ensures Settle(sc, i, MidState(sc, ch, rank, st, i, 0)) == Ok(AfterState(sc, ch, rank, st, i))
  {
    var m := MidState(sc, ch, rank, st, i, 0);
    var a := AfterState(sc, ch, rank, st, i);
    assert Desc(sc, ch, rank, i, i);
    FinalMid(sc, ch, rank, i, st, i);
    SurvivesIffKept(sc, ch, rank, i);
    assert i !in m.removed;
    var children := if sc.parent[i].Some? then
      m.children[sc.parent[i].value := RemoveFirst(m.children[sc.parent[i].value], i)] else m.children;
    if sc.parent[i].Some? {
      var p := sc.parent[i].value;
      assert rank[i] < rank[p];
      assert !Desc(sc, ch, rank, p, i);
      FinalMid(sc, ch, rank, i, st, p);
    }
    SettleCuts(sc, i, m);
    forall x | 0 <= x < |sc.parent|
      ensures children[x] == a.children[x]
    {
      FinalMid(sc, ch, rank, i, st, x);
    }
    assert children == a.children;
    DeadSplit(sc, ch, rank, i);
    assert m.removed + {i} == a.removed;
    assert PruneState(children, m.removed + {i}) == a;
  }

  /** Midway through the loop, position `k - 1` of the list still holds the
      linked child. */
  lemma ChildAt(sc: Scene, ch: seq<seq<nat>>, rank: seq<nat>, i: nat, k: nat, k1: nat, st0: PruneState, st: PruneState)
    requires IsTree(sc, ch, rank) && ValidState(sc, st0) && i < |sc.parent| && k == k1 + 1 && k <= |ch[i]|
    requires st == MidState(sc, ch, rank, st0, i, k)
    ensures k1 < |st.children[i]| && st.children[i][k1] == ch[i][k1]
  {
    assert st.children[i] == ch[i][..k] + Filter(ch[i][k..], Alive(sc, ch, rank));
  }

  /** The child at position `k - 1` of an untouched `i` is itself untouched
      midway through the loop. */
  lemma ChildUntouched(sc: Scene, ch: seq<seq<nat>>, rank: seq<nat>, i: nat, k: nat, k1: nat, st0: PruneState)
    requires IsTree(sc, ch, rank) && ValidState(sc, st0) && i < |sc.parent| && k == k1 + 1 && k <= |ch[i]|
    requires Untouched(sc, ch, rank, st0, i)
    ensures Untouched(sc, ch, rank, MidState(sc, ch, rank, st0, i, k), ch[i][k1])
  {
    var st := MidState(sc, ch, rank, st0, i, k);
    var c := ch[i][k1];
    assert st.children[i] == ch[i][..k] + Filter(ch[i][k..], Alive(sc, ch, rank));
    assert IndexOf(ch[i], c) == k1;
    forall x | 0 <= x < |sc.parent| && Desc(sc, ch, rank, x, c)
      ensures st.children[x] == ch[x] && x !in st.removed
    {
      TopUnique(sc, ch, rank, x, c, i);
    }
  }

  /** One unfolding of the child loop. */
  lemma PruneChildrenStep(sc: Scene, i: nat, k: nat, k1: nat, depth: nat, d: nat, c: nat,
                          st: PruneState, st1: PruneState, st2: PruneState)
    requires ValidScene(sc) && ValidState(sc, st) && ValidState(sc, st1) && i < |sc.parent|
    requires k == k1 + 1 && k1 < |st.children[i]| && st.children[i][k1] == c && depth == d + 1
    requires c < |sc.parent| && Prune(sc, c, d, st) == Ok(st1)
    requires PruneChildren(sc, i, k1, depth, st1) == Ok(st2)
    ensures PruneChildren(sc, i, k, depth, st) == Ok(st2)
  {
    assert k != 0 && k - 1 == k1 && depth != 0 && depth - 1 == d;
  }

  /** A node elsewhere keeps its place in the picture across one iteration. */
  lemma StepOther(sc: Scene, ch: seq<seq<nat>>, rank: seq<nat>, i: nat, k: nat, k1: nat, st0: PruneState, x: nat)
    requires IsTree(sc, ch, rank) && ValidState(sc, st0) && i < |sc.parent| && k == k1 + 1 && k <= |ch[i]| && x < |sc.parent|
    requires x != i && !Desc(sc, ch, rank, x, ch[i][k1])
    ensures MidChildren(sc, ch, rank, st0, i, k1, x) == MidChildren(sc, ch, rank, st0, i, k, x)
  {
    if Desc(sc, ch, rank, x, i) {
      var t := Top(sc, ch, rank, x, i);
      assert t != ch[i][k1];
      assert IndexOf(ch[i], ch[i][k1]) == k1;
    }
  }

  /** One iteration's removals: the dead nodes below the visited child join
      the dead nodes of the positions already done. */
  lemma StepDead(sc: Scene, ch: seq<seq<nat>>, rank: seq<nat>, i: nat, k: nat, k1: nat)
    requires IsTree(sc, ch, rank) && i < |sc.parent| && k == k1 + 1 && k <= |ch[i]|
    ensures DeadFrom(sc, ch, rank, i, k1) == DeadFrom(sc, ch, rank, i, k) + Dead(sc, ch, rank, ch[i][k1])
  {
    var c := ch[i][k1];
    assert IndexOf(ch[i], c) == k1;
    forall x: nat | x in Dead(sc, ch, rank, c)
      ensures x in DeadFrom(sc, ch, rank, i, k1)
    {
      TopUnique(sc, ch, rank, x, c, i);
    }
  }

  /** The bookkeeping of one loop iteration: pruning the child at position
      `k - 1` turns the picture with `k` positions left into the one with `k - 1`. */
  lemma StepKeepsMid(sc: Scene, ch: seq<seq<nat>>, rank: seq<nat>, i: nat, k: nat, k1: nat, st0: PruneState)
    requires IsTree(sc, ch, rank) && ValidState(sc, st0) && i < |sc.parent| && k == k1 + 1 && k <= |ch[i]|
    requires Untouched(sc, ch, rank, st0, i)
    ensures AfterState(sc, ch, rank, MidState(sc, ch, rank, st0, i, k), ch[i][k1]) == MidState(sc, ch, rank, st0, i, k1)
  {
    var c := ch[i][k1];
    var st := MidState(sc, ch, rank, st0, i, k);
    var a := AfterState(sc, ch, rank, st, c);
    var m := MidState(sc, ch, rank, st0, i, k1);
    forall x | 0 <= x < |sc.parent|
      ensures a.children[x] == m.children[x]
    {
      StepChild(sc, ch, rank, i, k, k1, st0, st, x);
    }
    assert a.children == m.children;
    StepDead(sc, ch, rank, i, k, k1);
  }

  /** StepKeepsMid for the child list of one node `x`. */
  lemma StepChild(sc: Scene, ch: seq<seq<nat>>, rank: seq<nat>, i: nat, k: nat, k1: nat, st0: PruneState,
                  st: PruneState, x: nat)
    requires IsTree(sc, ch, rank) && ValidState(sc, st0) && i < |sc.parent| && k == k1 + 1 && k <= |ch[i]|
    requires Untouched(sc, ch, rank, st0, i) && x < |sc.parent|
    requires st == MidState(sc, ch, rank, st0, i, k)
    ensures AfterChildren(sc, ch, rank, st, ch[i][k1], x) == MidChildren(sc, ch, rank, st0, i, k1, x)
  {
    var c := ch[i][k1];
    if Desc(sc, ch, rank, x, c) {
      StepBelow(sc, ch, rank, i, k, k1, st0, st, x);
    } else if x == i {
      StepSelf(sc, ch, rank, i, k, k1, st0, st);
    } else {
      assert sc.parent[c] == Some(i);
      StepOther(sc, ch, rank, i, k, k1, st0, x);
    }
  }

  /** StepChild for a node below the visited child: it ends with its kept children. */
  lemma StepBelow(sc: Scene, ch: seq<seq<nat>>, rank: seq<nat>, i: nat, k: nat, k1: nat, st0: PruneState,
                  st: PruneState, x: nat)
    requires IsTree(sc, ch, rank) && ValidState(sc, st0) && i < |sc.parent| && k == k1 + 1 && k <= |ch[i]|
    requires x < |sc.parent| && st == MidState(sc, ch, rank, st0, i, k) && Desc(sc, ch, rank, x, ch[i][k1])
    ensures AfterChildren(sc, ch, rank, st, ch[i][k1], x) == MidChildren(sc, ch, rank, st0, i, k1, x)
  {
    var c := ch[i][k1];
    assert sc.parent[c] == Some(i);
    assert IndexOf(ch[i], c) == k1;
    TopUnique(sc, ch, rank, x, c, i);
  }

  /** StepChild for `i` itself: the visited child stays exactly when it survives. */
  lemma StepSelf(sc: Scene, ch: seq<seq<nat>>, rank: seq<nat>, i: nat, k: nat, k1: nat, st0: PruneState,
                 st: PruneState)
    requires IsTree(sc, ch, rank) && ValidState(sc, st0) && i < |sc.parent| && k == k1 + 1 && k <= |ch[i]|
    requires st == MidState(sc, ch, rank, st0, i, k) && !Desc(sc, ch, rank, i, ch[i][k1])
    ensures AfterChildren(sc, ch, rank, st, ch[i][k1], i) == MidChildren(sc, ch, rank, st0, i, k1, i)
  {
    var c := ch[i][k1];
    assert sc.parent[c] == Some(i);
    assert st.children[i] == MidChildren(sc, ch, rank, st0, i, k, i);
    CutVisited(ch[i], Alive(sc, ch, rank), k, st.children[i]);
  }

  /** On an untouched subtree, remove_empty(i) succeeds and yields the
      reference picture: every node of the subtree keeps exactly its surviving
      children in their original order, exactly the nodes that do not survive
      are removed, `i` leaves its parent's list exactly when it does not
      survive, and nothing else changes. */
  lemma {:induction false} PruneIsReference(sc: Scene, ch: seq<seq<nat>>, rank: seq<nat>, i: nat, depth: nat, st: PruneState)
    requires IsTree(sc, ch, rank) && ValidState(sc, st) && i < |sc.parent| && depth >= rank[i]
    requires Untouched(sc, ch, rank, st, i)
    requires sc.parent[i].Some? ==> i in st.children[sc.parent[i].value]
    ensures Prune(sc, i, depth, st) == Ok(AfterState(sc, ch, rank, st, i))
    decreases depth, 1
  {
    assert Desc(sc, ch, rank, i, i);
    InitialMid(sc, ch, rank, i, st);
    PruneChildrenIsReference(sc, ch, rank, i, |ch[i]|, depth, st, st, MidState(sc, ch, rank, st, i, 0));
    if Survives(sc, ch, rank, i) {
      SettleKeeps(sc, ch, rank, i, st);
    } else {
      SettleDrops(sc, ch, rank, i, st);
    }
  }

  /** One iteration of the child loop of remove_empty(i): pruning the child
      at position `k - 1` moves the picture on by one position. */
  lemma {:induction false} ChildIsReference(sc: Scene, ch: seq<seq<nat>>, rank: seq<nat>, i: nat, k: nat, depth: nat,
                                            k1: nat, st0: PruneState, st: PruneState, st1: PruneState, c: nat, d: nat)
    requires IsTree(sc, ch, rank) && ValidState(sc, st0) && i < |sc.parent| && depth >= rank[i] && k <= |ch[i]|
    requires Untouched(sc, ch, rank, st0, i) && k == k1 + 1
    requires st == MidState(sc, ch, rank, st0, i, k) && st1 == MidState(sc, ch, rank, st0, i, k1)
    requires c == ch[i][k1] && d + 1 == depth
    ensures ValidState(sc, st) && c < |sc.parent|
    ensures Prune(sc, c, d, st) == Ok(st1)
    decreases depth, 0, k1, 0
  {
    ChildAt(sc, ch, rank, i, k, k1, st0, st);
    ChildUntouched(sc, ch, rank, i, k, k1, st0);
    assert sc.parent[c] == Some(i) && rank[c] < rank[i];
    assert c in st.children[i];
    PruneIsReference(sc, ch, rank, c, d, st);
    StepKeepsMid(sc, ch, rank, i, k, k1, st0);
  }

  /** The loop with `k` positions left ends where the loop with `k - 1` does. */
  lemma {:induction false} LoopStep(sc: Scene, ch: seq<seq<nat>>, rank: seq<nat>, i: nat, k: nat, depth: nat,
                                    k1: nat, st0: PruneState, st: PruneState, st1: PruneState, fin: PruneState)
    requires IsTree(sc, ch, rank) && ValidState(sc, st0) && i < |sc.parent| && depth >= rank[i] && k <= |ch[i]|
    requires Untouched(sc, ch, rank, st0, i) && k == k1 + 1
    requires st == MidState(sc, ch, rank, st0, i, k) && st1 == MidState(sc, ch, rank, st0, i, k1)
    requires ValidState(sc, st1) && PruneChildren(sc, i, k1, depth, st1) == Ok(fin)
    ensures ValidState(sc, st) && PruneChildren(sc, i, k, depth, st) == Ok(fin)
    decreases depth, 0, k1, 1
  {
    var c := ch[i][k1];
    assert rank[c] < rank[i];
    var d: nat := depth - 1;
    ChildAt(sc, ch, rank, i, k, k1, st0, st);
    ChildIsReference(sc, ch, rank, i, k, depth, k1, st0, st, st1, c, d);
    PruneChildrenStep(sc, i, k, k1, depth, d, c, st, st1, fin);
  }

  /** The child loop of remove_empty(i) turns each picture into the final one. */
  lemma {:induction false} PruneChildrenIsReference(sc: Scene, ch: seq<seq<nat>>, rank: seq<nat>, i: nat, k: nat, depth: nat,
                                                    st0: PruneState, st: PruneState, fin: PruneState)
    requires IsTree(sc, ch, rank) && ValidState(sc, st0) && i < |sc.parent| && depth >= rank[i] && k <= |ch[i]|
    requires Untouched(sc, ch, rank, st0, i)
    requires st == MidState(sc, ch, rank, st0, i, k) && fin == MidState(sc, ch, rank, st0, i, 0)
    ensures ValidState(sc, st) && PruneChildren(sc, i, k, depth, st) == Ok(fin)
    decreases depth, 0, k
  {
    if k > 0 {
      var k1: nat := k - 1;
      var st1 := MidState(sc, ch, rank, st0, i, k1);
      PruneChildrenIsReference(sc, ch, rank, i, k1, depth, st0, st1, fin);
      LoopStep(sc, ch, rank, i, k, depth, k1, st0, st, st1, fin);
    }
  }

  /** remove_empty from the root of a well-formed scene yields the reference
      picture for the whole tree under node 0. */
  lemma RemoveEmptyIsReference(sc: Scene, ch: seq<seq<nat>>, rank: seq<nat>, depth: nat)
    requires IsTree(sc, ch, rank) && |sc.parent| > 0 && sc.parent[0].None? && depth >= rank[0]
    ensures ValidState(sc, PruneState(ch, {}))
    ensures RemoveEmpty(sc, ch, depth) == Ok(AfterState(sc, ch, rank, PruneState(ch, {}), 0))
  {
    Hierarchy.RootCheckFirstIsRoot(sc.parent);
    PruneIsReference(sc, ch, rank, 0, depth, PruneState(ch, {}));
  }

  /** The outcome of remove_empty in plain terms: every node under the root
      keeps exactly its surviving children in their linked order, every other
      list is untouched, and the removed nodes are exactly those under the root
      that do not survive. */
  lemma RemoveEmptyOutcome(sc: Scene, ch: seq<seq<nat>>, rank: seq<nat>, depth: nat)
    requires IsTree(sc, ch, rank) && |sc.parent| > 0 && sc.parent[0].None? && depth >= rank[0]
    ensures ValidState(sc, PruneState(ch, {}))
    ensures RemoveEmpty(sc, ch, depth).Ok?
    ensures forall x :: 0 <= x < |sc.parent| ==>
              RemoveEmpty(sc, ch, depth).value.children[x] ==
                if Desc(sc, ch, rank, x, 0) then Kept(sc, ch, rank, x) else ch[x]
    ensures forall x: nat :: x in RemoveEmpty(sc, ch, depth).value.removed <==>
              x < |sc.parent| && Desc(sc, ch, rank, x, 0) && !Survives(sc, ch, rank, x)
  {
    RemoveEmptyIsReference(sc, ch, rank, depth);
    var a := AfterState(sc, ch, rank, PruneState(ch, {}), 0);
    forall x | 0 <= x < |sc.parent|
      ensures a.children[x] == if Desc(sc, ch, rank, x, 0) then Kept(sc, ch, rank, x) else ch[x]
    {
      assert a.children[x] == AfterChildren(sc, ch, rank, PruneState(ch, {}), 0, x);
    }
  }

  /** After remove_empty, every node under the root that is still in the scene
      has a child, an armature or data. */
  lemma RemoveEmptyLeavesNoEmptyNode(sc: Scene, ch: seq<seq<nat>>, rank: seq<nat>, depth: nat)
    requires IsTree(sc, ch, rank) && |sc.parent| > 0 && sc.parent[0].None? && depth >= rank[0]
    ensures ValidState(sc, PruneState(ch, {})) && RemoveEmpty(sc, ch, depth).Ok?
    ensures var r := RemoveEmpty(sc, ch, depth).value;
            forall x :: 0 <= x < |sc.parent| && Desc(sc, ch, rank, x, 0) && x !in r.removed ==>
              |r.children[x]| > 0 || sc.hasArmature[x] || sc.hasData[x]
  {
    RemoveEmptyOutcome(sc, ch, rank, depth);
    forall x | 0 <= x < |sc.parent|
      ensures Survives(sc, ch, rank, x) ==> |Kept(sc, ch, rank, x)| > 0 || sc.hasArmature[x] || sc.hasData[x]
    {
      SurvivesIffKept(sc, ch, rank, x);
    }
  }

  /** Every surviving node under `i` has its kept children and is in the scene. */
  predicate Settled(sc: Scene, ch: seq<seq<nat>>, rank: seq<nat>, st: PruneState, i: nat)
    requires IsTree(sc, ch, rank) && ValidState(sc, st) && i < |sc.parent|
  {
    forall x :: 0 <= x < |sc.parent| && Desc(sc, ch, rank, x, i) && Survives(sc, ch, rank, x) ==>
      st.children[x] == Kept(sc, ch, rank, x) && x !in st.removed
  }

  /** Every child in the list of `i` is a settled survivor below `i`. */
  predicate ChildrenReady(sc: Scene, ch: seq<seq<nat>>, rank: seq<nat>, st: PruneState, i: nat)
    requires IsTree(sc, ch, rank) && ValidState(sc, st) && i < |sc.parent|
  {
    forall j :: 0 <= j < |st.children[i]| ==>
      var c := st.children[i][j];
      c < |sc.parent| && rank[c] < rank[i] && Survives(sc, ch, rank, c) && Settled(sc, ch, rank, st, c)
  }

  /** remove_empty on a surviving node whose subtree is already pruned changes nothing. */
  lemma {:induction false} PruneSettled(sc: Scene, ch: seq<seq<nat>>, rank: seq<nat>, i: nat, depth: nat, st: PruneState)
    requires IsTree(sc, ch, rank) && ValidState(sc, st) && i < |sc.parent| && depth >= rank[i]
    requires Survives(sc, ch, rank, i) && Settled(sc, ch, rank, st, i)
    ensures Prune(sc, i, depth, st) == Ok(st)
    decreases depth, 1
  {
    assert Desc(sc, ch, rank, i, i);
    forall j | 0 <= j < |st.children[i]|
      ensures var c := st.children[i][j];
              c < |sc.parent| && rank[c] < rank[i] && Survives(sc, ch, rank, c) && Settled(sc, ch, rank, st, c)
    {
      SettledChild(sc, ch, rank, i, st, st.children[i][j]);
    }
    PruneChildrenSettled(sc, ch, rank, i, |st.children[i]|, depth, st);
    SurvivesIffKept(sc, ch, rank, i);
  }

  /** The child loop over an already pruned list changes nothing. */
  lemma {:induction false} PruneChildrenSettled(sc: Scene, ch: seq<seq<nat>>, rank: seq<nat>, i: nat, k: nat, depth: nat,
                                                st: PruneState)
    requires IsTree(sc, ch, rank) && ValidState(sc, st) && i < |sc.parent| && depth >= rank[i]
    requires ChildrenReady(sc, ch, rank, st, i) && k <= |st.children[i]|
    ensures PruneChildren(sc, i, k, depth, st) == Ok(st)
    decreases depth, 0, k
  {
    if k > 0 {
      var k1: nat := k - 1;
      var c := st.children[i][k1];
      var d: nat := depth - 1;
      PruneSettled(sc, ch, rank, c, d, st);
      PruneChildrenSettled(sc, ch, rank, i, k1, depth, st);
      PruneChildrenStep(sc, i, k, k1, depth, d, c, st, st, st);
    }
  }

  /** A child in the pruned list of a settled node is a settled survivor. */
  lemma SettledChild(sc: Scene, ch: seq<seq<nat>>, rank: seq<nat>, i: nat, st: PruneState, c: nat)
    requires IsTree(sc, ch, rank) && ValidState(sc, st) && i < |sc.parent|
    requires Survives(sc, ch, rank, i) && Settled(sc, ch, rank, st, i) && c in st.children[i]
    ensures c < |sc.parent| && sc.parent[c] == Some(i) && rank[c] < rank[i]
    ensures Survives(sc, ch, rank, c) && Settled(sc, ch, rank, st, c)
  {
    assert Desc(sc, ch, rank, i, i);
    assert c in Kept(sc, ch, rank, i);
    var m :| 0 <= m < |ch[i]| && ch[i][m] == c;
    forall x | 0 <= x < |sc.parent| && Desc(sc, ch, rank, x, c) && Survives(sc, ch, rank, x)
      ensures st.children[x] == Kept(sc, ch, rank, x) && x !in st.removed
    {
      DescOfChild(sc, ch, rank, x, c, i);
    }
  }

  /** Pruning again after remove_empty changes nothing when the root survived:
      neither rerunning remove_empty on the pruned scene nor starting afresh
      from its child lists removes anything more. */
  lemma RemoveEmptyIdempotent(sc: Scene, ch: seq<seq<nat>>, rank: seq<nat>, depth: nat)
    requires IsTree(sc, ch, rank) && |sc.parent| > 0 && sc.parent[0].None? && depth >= rank[0]
    requires Survives(sc, ch, rank, 0)
    ensures ValidState(sc, PruneState(ch, {})) && RemoveEmpty(sc, ch, depth).Ok?
    ensures var r := RemoveEmpty(sc, ch, depth).value;
            && Prune(sc, 0, depth, r) == Ok(r)
            && ValidState(sc, PruneState(r.children, {}))
            && RemoveEmpty(sc, r.children, depth) == Ok(PruneState(r.children, {}))
  {
    RemoveEmptyOutcome(sc, ch, rank, depth);
    var r := RemoveEmpty(sc, ch, depth).value;
    PruneSettled(sc, ch, rank, 0, depth, r);
    Hierarchy.RootCheckFirstIsRoot(sc.parent);
    PruneSettled(sc, ch, rank, 0, depth, PruneState(r.children, {}));
  }

  /** When nothing under the root survives, the root object itself was
      removed, and running remove_empty on the result again fails on it. */
  lemma RemoveEmptyTwiceWithoutRoot(sc: Scene, ch: seq<seq<nat>>, rank: seq<nat>, depth: nat)
    requires IsTree(sc, ch, rank) && |sc.parent| > 0 && sc.parent[0].None? && depth >= rank[0]
    requires !Survives(sc, ch, rank, 0)
    ensures ValidState(sc, PruneState(ch, {})) && RemoveEmpty(sc, ch, depth).Ok?
    ensures var r := RemoveEmpty(sc, ch, depth).value;
            0 in r.removed && Prune(sc, 0, depth, r) == Err(RemovedObject)
  {
    RemoveEmptyOutcome(sc, ch, rank, depth);
    var r := RemoveEmpty(sc, ch, depth).value;
    assert Desc(sc, ch, rank, 0, 0);
    SurvivesIffKept(sc, ch, rank, 0);
    assert PruneChildren(sc, 0, |r.children[0]|, depth, r) == Ok(r);
  }
}

=== FILE: pruner.dfy ===
/** The pruning pass of load (blender_io/__init__.py, remove_empty): from the
    node the root check returns, post-order, a node whose children are all gone
    and that has no armature and no object data is removed from the scene and
    from its parent's child list. Children are visited from the last to the first. */
module Pruner {
  import opened Wrappers
  import opened GltfTypes
  import Hierarchy

  /** What pruning reads and never changes: each node's parent, whether it has
      an armature, and whether its object holds data (a mesh). */
  datatype Scene = Scene(parent: seq<Option<nat>>, hasArmature: seq<bool>, hasData: seq<bool>)

  /** What pruning changes: the child lists, and the nodes whose objects are removed. */
  datatype PruneState = PruneState(children: seq<seq<nat>>, removed: set<nat>)

  predicate ValidScene(sc: Scene) {
    && |sc.hasArmature| == |sc.parent| && |sc.hasData| == |sc.parent|
    && forall c :: 0 <= c < |sc.parent| && sc.parent[c].Some? ==> sc.parent[c].value < |sc.parent|
  }

  predicate ValidState(sc: Scene, st: PruneState) {
    && |st.children| == |sc.parent|
    && forall p, k :: 0 <= p < |st.children| && 0 <= k < |st.children[p]| ==> st.children[p][k] < |sc.parent|
  }

  /** Every removed node is childless, has no armature and no data. */
  predicate RemovedAreEmpty(sc: Scene, st: PruneState)
    requires ValidScene(sc) && ValidState(sc, st)
  {
    forall r :: r in st.removed ==>
      r < |sc.parent| && |st.children[r]| == 0 && !sc.hasArmature[r] && !sc.hasData[r]
  }

  /** `list.remove(x)`: drop the first occurrence of `x`. */
  function RemoveFirst(s: seq<nat>, x: nat): (r: seq<nat>)
    requires x in s
    ensures multiset(r) == multiset(s) - multiset{x}
    ensures forall y :: y in r ==> y in s
  {
    if s[0] == x then
      assert s == [s[0]] + s[1..];
      s[1..]
    else
      assert s == [s[0]] + s[1..];
      [s[0]] + RemoveFirst(s[1..], x)
  }

  /** Removing the first occurrence of `x`, when it sits at position `k`, cuts
      exactly that position and keeps the rest in order. */
  lemma {:induction false} RemoveFirstAt(s: seq<nat>, x: nat, k: nat)
    requires k < |s| && s[k] == x && x !in s[..k]
    ensures RemoveFirst(s, x) == s[..k] + s[k + 1..]
  {
    if k > 0 {
      assert s[0] != x by { assert s[0] == s[..k][0]; }
      assert s[1..][..k - 1] == s[1..k];
      RemoveFirstAt(s[1..], x, k - 1);
    }
  }

  /** remove_empty on node `i`, allowed `depth` further nested calls. */
  function Prune(sc: Scene, i: nat, depth: nat, st: PruneState): (r: Result<PruneState, ImportError>)
    requires ValidScene(sc) && ValidState(sc, st) && i < |sc.parent|
    ensures r.Ok? ==> ValidState(sc, r.value) && st.removed <= r.value.removed
    decreases depth, 1
  {
    match PruneChildren(sc, i, |st.children[i]|, depth, st)
    case Err(e) => Err(e)
    case Ok(st1) => Settle(sc, i, st1)
  }

  /** The rest of remove_empty on node `i`, once its children are done: keep
      it when it still has children, an armature or data, and otherwise
      remove its object and take it out of its parent's child list. */
  function Settle(sc: Scene, i: nat, st1: PruneState): (r: Result<PruneState, ImportError>)
    requires ValidScene(sc) && ValidState(sc, st1) && i < |sc.parent|
    ensures r.Ok? ==> ValidState(sc, r.value) && st1.removed <= r.value.removed
    ensures |st1.children[i]| > 0 || sc.hasArmature[i] ==> r == Ok(st1)
    ensures r == Err(RemovedObject) <==> |st1.children[i]| == 0 && !sc.hasArmature[i] && i in st1.removed
    ensures r == Err(ValueNotInList) <==>
              && |st1.children[i]| == 0 && !sc.hasArmature[i] && !sc.hasData[i] && i !in st1.removed
              && sc.parent[i].Some? && i !in st1.children[sc.parent[i].value]
    ensures r.Err? ==> r.error == RemovedObject || r.error == ValueNotInList
    ensures && |st1.children[i]| == 0 && !sc.hasArmature[i] && !sc.hasData[i] && i !in st1.removed
            && (sc.parent[i].Some? ==> i in st1.children[sc.parent[i].value])
            ==> r.Ok? && i in r.value.removed
    ensures r.Ok? && r.value != st1 ==>
              && |st1.children[i]| == 0 && !sc.hasArmature[i] && !sc.hasData[i]
              && r.value.removed == st1.removed + {i} && i !in st1.removed
              && (sc.parent[i].None? ==> r.value.children == st1.children)
              && (sc.parent[i].Some? ==>
                    var p := sc.parent[i].value;
                    i in st1.children[p] && r.value.children == st1.children[p := RemoveFirst(st1.children[p], i)])
  {
      if |st1.children[i]| > 0 || sc.hasArmature[i] then Ok(st1)
      else if i in st1.removed then Err(RemovedObject)
      else if sc.hasData[i] then Ok(st1)
      else
        var removed := st1.removed + {i};
        match sc.parent[i]
        case None => Ok(PruneState(st1.children, removed))
        case Some(p) =>
          if i !in st1.children[p] then Err(ValueNotInList)
          else
            var rest := RemoveFirst(st1.children[p], i);
            assert forall k :: 0 <= k < |rest| ==> rest[k] in st1.children[p];
            Ok(PruneState(st1.children[p := rest], removed))
  }

  /** The loop `for i in range(len(node.children)-1, -1, -1)` of remove_empty
      with `k` positions still to visit: it visits position `k - 1` next. */
  function PruneChildren(sc: Scene, i: nat, k: nat, depth: nat, st: PruneState): (r: Result<PruneState, ImportError>)
    requires ValidScene(sc) && ValidState(sc, st) && i < |sc.parent|
    ensures r.Ok? ==> ValidState(sc, r.value) && st.removed <= r.value.removed
    decreases depth, 0, k
  {
    if k == 0 then Ok(st)
    else if k - 1 >= |st.children[i]| then Err(IndexOutOfRange)
    else if depth == 0 then Err(RecursionLimit)
    else
      match Prune(sc, st.children[i][k - 1], depth - 1, st)
      case Err(e) => Err(e)
      case Ok(st1) => PruneChildren(sc, i, k - 1, depth, st1)
  }

  /** remove_empty as load calls it: on the node the root check returns,
      starting from the linked child lists with nothing removed. */
  function RemoveEmpty(sc: Scene, children: seq<seq<nat>>, depth: nat): (r: Result<PruneState, ImportError>)
    requires ValidScene(sc) && ValidState(sc, PruneState(children, {}))
    ensures r.Ok? ==> ValidState(sc, r.value) && RemovedAreEmpty(sc, r.value)
    ensures r.Ok? ==> forall p :: 0 <= p < |children| ==> multiset(r.value.children[p]) <= multiset(children[p])
  {
    match Hierarchy.RootCheck(sc.parent)
    case Err(e) => Err(e)
    case Ok(root) =>
      PruneShrinks(sc, root, depth, PruneState(children, {}));
      Prune(sc, root, depth, PruneState(children, {}))
  }

  /** `st2` is `st` with entries dropped from child lists and, if
      `st` holds only empty removed nodes, so does `st2`. */
  predicate Shrinks(sc: Scene, st: PruneState, st2: PruneState)
    requires ValidScene(sc) && ValidState(sc, st) && ValidState(sc, st2)
  {
    && (forall p :: 0 <= p < |st.children| ==> multiset(st2.children[p]) <= multiset(st.children[p]))
    && (RemovedAreEmpty(sc, st) ==> RemovedAreEmpty(sc, st2))
  }

  lemma ShrinksTrans(sc: Scene, st: PruneState, st1: PruneState, st2: PruneState)
    requires ValidScene(sc) && ValidState(sc, st) && ValidState(sc, st1) && ValidState(sc, st2)
    requires Shrinks(sc, st, st1) && Shrinks(sc, st1, st2)
    ensures Shrinks(sc, st, st2)
  {
  }

  /** The tail of remove_empty only drops one entry of one list, and removes
      only a childless node with no armature and no data. */
  lemma SettleShrinks(sc: Scene, i: nat, st1: PruneState)
    requires ValidScene(sc) && ValidState(sc, st1) && i < |sc.parent|
    ensures Settle(sc, i, st1).Ok? ==> Shrinks(sc, st1, Settle(sc, i, st1).value)
  {
    var r := Settle(sc, i, st1);
    if r.Ok? && r.value != st1 {
      var st2 := r.value;
      forall q | 0 <= q < |st1.children|
        ensures multiset(st2.children[q]) <= multiset(st1.children[q])
      {
        if sc.parent[i].Some? && q == sc.parent[i].value {
          assert st2.children[q] == RemoveFirst(st1.children[q], i);
        } else {
          assert st2.children[q] == st1.children[q];
        }
      }
      if RemovedAreEmpty(sc, st1) {
        forall x | x in st2.removed
          ensures x < |sc.parent| && |st2.children[x]| == 0 && !sc.hasArmature[x] && !sc.hasData[x]
        {
          if x != i {
            assert x in st1.removed;
            assert st2.children[x] == st1.children[x];
          }
        }
      }
    }
  }

  /** remove_empty only drops entries from child lists, and every node it
      removes is childless, has no armature and no data. */
  lemma {:induction false} PruneShrinks(sc: Scene, i: nat, depth: nat, st: PruneState)
    requires ValidScene(sc) && ValidState(sc, st) && i < |sc.parent|
    ensures Prune(sc, i, depth, st).Ok? ==> Shrinks(sc, st, Prune(sc, i, depth, st).value)
    decreases depth, 1
  {
    var r1 := PruneChildren(sc, i, |st.children[i]|, depth, st);
    PruneChildrenShrinks(sc, i, |st.children[i]|, depth, st);
    if r1.Ok? {
      SettleShrinks(sc, i, r1.value);
      if Settle(sc, i, r1.value).Ok? {
        ShrinksTrans(sc, st, r1.value, Settle(sc, i, r1.value).value);
      }
    }
  }

  /** The child loop of remove_empty keeps what PruneShrinks states. */
  lemma {:induction false} PruneChildrenShrinks(sc: Scene, i: nat, k: nat, depth: nat, st: PruneState)
    requires ValidScene(sc) && ValidState(sc, st) && i < |sc.parent|
    ensures PruneChildren(sc, i, k, depth, st).Ok? ==> Shrinks(sc, st, PruneChildren(sc, i, k, depth, st).value)
    decreases depth, 0, k
  {
    if k != 0 && k - 1 < |st.children[i]| && depth != 0 {
      var d: nat := depth - 1;
      var k1: nat := k - 1;
      var c := st.children[i][k1];
      var r1 := Prune(sc, c, d, st);
      PruneShrinks(sc, c, d, st);
      if r1.Ok? {
        PruneChildrenShrinks(sc, i, k1, depth, r1.value);
        var r2 := PruneChildren(sc, i, k1, depth, r1.value);
        if r2.Ok? {
          ShrinksTrans(sc, st, r1.value, r2.value);
        }
      }
    }
  }
}

=== FILE: skin_membership.dfy ===
/** Which skin lists a node as a joint: `get_skins` in load_objects and the
    skin check of `Node.__init__` (blender_io/node_io.py). */
module SkinMembership {
  import opened Wrappers
  import opened GltfTypes

  /** A node's place in a skin: the skin's index and the joint slot within it. */
  datatype SkinRef = SkinRef(skin: nat, joint: nat)

  /** The first slot at or after `from` whose joint is `i`; the enumerate loop
      of get_skins, which breaks at its first match. */
  function FirstSlot(joints: seq<int>, i: int, from: nat): (r: Option<nat>)
    requires from <= |joints|
    ensures r.Some? ==> && from <= r.value < |joints| && joints[r.value] == i
                        && forall k :: from <= k < r.value ==> joints[k] != i
    ensures r.None? <==> forall k :: from <= k < |joints| ==> joints[k] != i
    decreases |joints| - from
  {
    if from == |joints| then None
    else if joints[from] == i then Some(from)
    else FirstSlot(joints, i, from + 1)
  }

  /** Skin `s` lists node `i`. */
  predicate Lists(skins: seq<GltfSkin>, s: nat, i: int)
    requires s < |skins|
  {
    i in skins[s].joints
  }

  /** Some pair of `r` names skin `s`. */
  predicate Names(r: seq<SkinRef>, s: nat) {
    exists p :: 0 <= p < |r| && r[p].skin == s
  }

  /** What get_skins(i) yields over the skins from index `from` on: one pair per
      skin that lists `i`, in skin order, holding the first slot listing it. */
  function GetSkins(skins: seq<GltfSkin>, i: int, from: nat): (r: seq<SkinRef>)
    requires from <= |skins|
    ensures forall p :: 0 <= p < |r| ==>
              && from <= r[p].skin < |skins|
              && FirstSlot(skins[r[p].skin].joints, i, 0) == Some(r[p].joint)
    ensures forall p, q :: 0 <= p < q < |r| ==> r[p].skin < r[q].skin
    ensures forall s :: from <= s < |skins| ==> (Lists(skins, s, i) <==> Names(r, s))
    decreases |skins| - from
  {
    if from == |skins| then []
    else
      var rest := GetSkins(skins, i, from + 1);
      var first := FirstSlot(skins[from].joints, i, 0);
      if first.Some? then
        var r := [SkinRef(from, first.value)] + rest;
        ConsNames(r, rest, from);
        r
      else
        assert !Lists(skins, from, i);
        assert !Names(rest, from);
        rest
  }

  lemma ConsNames(r: seq<SkinRef>, rest: seq<SkinRef>, from: nat)
    requires |r| == |rest| + 1 && r[0].skin == from && r[1..] == rest
    requires forall p :: 0 <= p < |rest| ==> rest[p].skin > from
    ensures Names(r, from)
    ensures forall s :: s > from ==> (Names(r, s) <==> Names(rest, s))
  {
    assert r[0].skin == from;
    forall s | s > from
      ensures Names(r, s) <==> Names(rest, s)
    {
      if Names(rest, s) {
        var p :| 0 <= p < |rest| && rest[p].skin == s;
        assert r[p + 1] == rest[p];
      }
      if Names(r, s) {
        var p :| 0 <= p < |r| && r[p].skin == s;
        assert p > 0 && rest[p - 1] == r[p];
      }
    }
  }

  /** Node.__init__'s skin check: a node listed by two or more skins raises;
      otherwise it belongs to the one skin that lists it, at its first slot, or to none. */
  function NodeSkin(skins: seq<GltfSkin>, i: int): (r: Result<Option<SkinRef>, ImportError>)
    ensures r.Err? <==> exists s1, s2 :: 0 <= s1 < s2 < |skins| && Lists(skins, s1, i) && Lists(skins, s2, i)
    ensures r.Err? ==> r.error == MultipleSkin
    ensures r == Ok(None) <==> forall s :: 0 <= s < |skins| ==> !Lists(skins, s, i)
    ensures r.Ok? && r.value.Some? ==>
              var ref := r.value.value;
              && ref.skin < |skins|
              && ref.joint < |skins[ref.skin].joints| && skins[ref.skin].joints[ref.joint] == i
              && (forall k :: 0 <= k < ref.joint ==> skins[ref.skin].joints[k] != i)
              && (forall s :: 0 <= s < |skins| && s != ref.skin ==> !Lists(skins, s, i))
  {
    var ms := GetSkins(skins, i, 0);
    if |ms| > 1 then
      assert Names(ms, ms[0].skin) && Names(ms, ms[1].skin);
      Err(MultipleSkin)
    else if |ms| == 1 then
      assert forall s :: Names(ms, s) ==> s == ms[0].skin;
      assert Names(ms, ms[0].skin) && Lists(skins, ms[0].skin, i);
      Ok(Some(ms[0]))
    else
      assert forall s :: !Names(ms, s);
      Ok(None)
  }
}

=== FILE: skinning.dfy ===
/** Vertex weights for skinned meshes: the skinned-node selection in load and the
    weight loop of _setup_skinning (blender_io/__init__.py). A mesh's vertex
    groups are a map from group name to the weight of each assigned vertex. */
module Skinning {
  import opened Wrappers
  import opened GltfTypes
  import opened Hierarchy
  import opened Naming

  /** Vertex groups of one mesh object: group name -> vertex -> weight. */
  type Groups = map<string, map<nat, real>>

  /** A Blender polygon: its run of entries in the mesh's loop list. */
  datatype Polygon = Polygon(loopStart: nat, loopTotal: nat)

  /** What _setup_skinning needs for one skinned node. */
  datatype SkinJob = SkinJob(node: nat, mesh: nat, boneNames: seq<string>, skeleton: nat)

  /** Blender keeps every polygon's loops inside the loop list. */
  predicate ValidTopology(polys: seq<Polygon>, loops: seq<nat>) {
    forall p :: 0 <= p < |polys| ==> polys[p].loopStart + polys[p].loopTotal <= |loops|
  }

  /** Some loop of some polygon refers to vertex `v`. */
  predicate Referenced(polys: seq<Polygon>, loops: seq<nat>, v: nat)
    requires ValidTopology(polys, loops)
  {
    exists p, l :: 0 <= p < |polys| && polys[p].loopStart <= l < polys[p].loopStart + polys[p].loopTotal && loops[l] == v
  }

  /** The vertex of every loop, polygon by polygon: the order the weight loop meets them. */
  function LoopVertices(polys: seq<Polygon>, loops: seq<nat>): (r: seq<nat>)
    requires ValidTopology(polys, loops)
    ensures forall v :: v in r <==> Referenced(polys, loops, v)
  {
    if polys == [] then []
    else
      var rest := LoopVertices(polys[1..], loops);
      var here := loops[polys[0].loopStart .. polys[0].loopStart + polys[0].loopTotal];
      forall v
        ensures v in here + rest <==> Referenced(polys, loops, v)
      {
        ReferencedSplit(polys, loops, v);
      }
      here + rest
  }

  /** A vertex is referenced by a non-empty polygon list exactly when the first
      polygon's loops or the later polygons refer to it. */
  lemma ReferencedSplit(polys: seq<Polygon>, loops: seq<nat>, v: nat)
    requires ValidTopology(polys, loops) && polys != []
    ensures Referenced(polys, loops, v) <==>
              || v in loops[polys[0].loopStart .. polys[0].loopStart + polys[0].loopTotal]
              || Referenced(polys[1..], loops, v)
  {
    var here := loops[polys[0].loopStart .. polys[0].loopStart + polys[0].loopTotal];
    if v in here {
      var j :| 0 <= j < |here| && here[j] == v;
      assert loops[polys[0].loopStart + j] == v;
    }
    if Referenced(polys[1..], loops, v) {
      ReferencedLater(polys, loops, v);
    }
    if Referenced(polys, loops, v) {
      var p, l :| 0 <= p < |polys| && polys[p].loopStart <= l < polys[p].loopStart + polys[p].loopTotal && loops[l] == v;
      if p == 0 {
        assert here[l - polys[0].loopStart] == v;
      } else {
        assert polys[1..][p - 1] == polys[p];
      }
    }
  }

  /** A vertex the later polygons refer to is referenced. */
  lemma ReferencedLater(polys: seq<Polygon>, loops: seq<nat>, v: nat)
    requires ValidTopology(polys, loops) && polys != [] && Referenced(polys[1..], loops, v)
    ensures Referenced(polys, loops, v)
  {
    var p, l :| 0 <= p < |polys[1..]| && polys[1..][p].loopStart <= l < polys[1..][p].loopStart + polys[1..][p].loopTotal
                && loops[l] == v;
    assert polys[p + 1] == polys[1..][p];
  }

  /** `s` with every element after its first occurrence dropped, skipping `seen`. */
  function DedupFrom(s: seq<nat>, seen: set<nat>): seq<nat> {
    if s == [] then []
    else if s[0] in seen then DedupFrom(s[1..], seen)
    else [s[0]] + DedupFrom(s[1..], seen + {s[0]})
  }

  /** The deduplication keeps each vertex not already seen, exactly once. */
  lemma {:induction false} DedupFromMeaning(s: seq<nat>, seen: set<nat>)
    ensures forall x :: x in DedupFrom(s, seen) <==> x in s && x !in seen
    ensures Distinct(DedupFrom(s, seen))
  {
    if s != [] {
      if s[0] in seen {
        DedupFromMeaning(s[1..], seen);
        forall x | x in s && x !in seen ensures x in s[1..] {
          var j :| 0 <= j < |s| && s[j] == x;
          assert j > 0 && s[1..][j - 1] == x;
        }
      } else {
        DedupFromMeaning(s[1..], seen + {s[0]});
        var r := [s[0]] + DedupFrom(s[1..], seen + {s[0]});
        forall x | x in s && x !in seen && x != s[0] ensures x in s[1..] {
          var j :| 0 <= j < |s| && s[j] == x;
          assert j > 0 && s[1..][j - 1] == x;
        }
        forall a, b | 0 <= a < b < |r| ensures r[a] != r[b] {
          if a == 0 {
            assert r[b] in DedupFrom(s[1..], seen + {s[0]});
          } else {
            assert r[a] == DedupFrom(s[1..], seen + {s[0]})[a - 1];
          }
        }
      }
    }
  }

  /** Entry `cpt` of a vertex can be read: its weight exists, and a non-zero
      weight's joint names a bone. */
  predicate EntryOk(js: seq<nat>, ws: seq<real>, names: seq<string>, cpt: nat)
    requires cpt < |js|
  {
    cpt < |ws| && (ws[cpt] != 0.0 ==> js[cpt] < |names|)
  }

  /** Processing vertex `v` raises nothing. */
  predicate VertexOk(names: seq<string>, joints: seq<seq<nat>>, weights: seq<seq<real>>, v: nat) {
    && v < |joints|
    && (|joints[v]| == 0 ||
          (v < |weights| && forall cpt :: 0 <= cpt < |joints[v]| ==> EntryOk(joints[v], weights[v], names, cpt)))
  }

  /** Entry `c` assigns a weight to group `g`. */
  predicate Assigns(names: seq<string>, js: seq<nat>, ws: seq<real>, g: string, c: nat) {
    c < |js| && c < |ws| && ws[c] != 0.0 && js[c] < |names| && names[js[c]] == g
  }

  /** The weight group `g` holds after the first `k` entries of one vertex: the
      last non-zero entry naming `g`, not a sum; none when there is no such entry. */
  function LastWeight(names: seq<string>, js: seq<nat>, ws: seq<real>, g: string, k: nat): Option<real>
  {
    if k == 0 then None
    else if Assigns(names, js, ws, g, k - 1) then Some(ws[k - 1])
    else LastWeight(names, js, ws, g, k - 1)
  }

  /** REPLACE semantics: a group ends up with the weight of the LAST non-zero
      entry that names it, and with nothing when every such entry is zero. */
  lemma {:induction false} LastWeightIsLastEntry(names: seq<string>, js: seq<nat>, ws: seq<real>, g: string, k: nat)
    ensures LastWeight(names, js, ws, g, k).None? <==> forall c :: 0 <= c < k ==> !Assigns(names, js, ws, g, c)
    ensures LastWeight(names, js, ws, g, k).Some? ==>
              exists c :: && 0 <= c < k && Assigns(names, js, ws, g, c)
                          && LastWeight(names, js, ws, g, k).value == ws[c]
                          && forall d :: c < d < k ==> !Assigns(names, js, ws, g, d)
  {
    if k > 0 && !Assigns(names, js, ws, g, k - 1) {
      LastWeightIsLastEntry(names, js, ws, g, k - 1);
    }
  }

  /** The weight vertex `v` should end up with in group `g`. */
  function Expected(names: seq<string>, joints: seq<seq<nat>>, weights: seq<seq<real>>, g: string, v: nat): Option<real> {
    if v < |joints| && v < |weights| then LastWeight(names, joints[v], weights[v], g, |joints[v]|)
    else None
  }

  /** Group `g` holds `w` for vertex `v`, or nothing when `w` is `None`. */
  predicate Holds(groups: Groups, g: string, v: nat, w: Option<real>)
    requires g in groups
  {
    (v in groups[g] <==> w.Some?) && (w.Some? ==> groups[g][v] == w.value)
  }

  function NameSet(names: seq<string>): set<string> {
    set k | 0 <= k < |names| :: names[k]
  }

  /** The body of _setup_skinning's weight loop for one vertex `v` met for the
      first time: each non-zero entry writes its weight into the group its
      joint names, replacing what the vertex had there. Every group ends up
      holding the vertex's expected weight and nothing else changes; reading
      past the end of the weights or the bone names raises. */
  method WriteVertex(names: seq<string>, joints: seq<seq<nat>>, weights: seq<seq<real>>, v: nat,
                     groups0: Groups, done: set<nat>)
    returns (r: Result<Groups, ImportError>)
    requires v < |joints| && v !in done && groups0.Keys == NameSet(names)
    requires forall g, u :: g in groups0 ==>
               Holds(groups0, g, u, if u in done then Expected(names, joints, weights, g, u) else None)
    ensures r.Ok? <==> VertexOk(names, joints, weights, v)
    ensures r.Ok? ==> r.value.Keys == NameSet(names)
    ensures r.Ok? ==> forall g, u :: g in r.value ==>
              Holds(r.value, g, u, if u in done + {v} then Expected(names, joints, weights, g, u) else None)
  {
    var groups := groups0;
    var js := joints[v];
    var cpt := 0;
    while cpt < |js|
      invariant 0 <= cpt <= |js|
      invariant groups.Keys == NameSet(names)
      invariant cpt > 0 ==> v < |weights|
      invariant forall c :: 0 <= c < cpt ==> EntryOk(js, weights[v], names, c)
      invariant forall g, u :: g in groups ==>
                  Holds(groups, g, u,
                        if u == v then LastWeight(names, js, if v < |weights| then weights[v] else [], g, cpt)
                        else if u in done then Expected(names, joints, weights, g, u) else None)
    {
      if v >= |weights| || cpt >= |weights[v]| {
        assert v < |weights| ==> !EntryOk(js, weights[v], names, cpt);
        return Err(IndexOutOfRange);
      }
      var w := weights[v][cpt];
      if w != 0.0 {
        if js[cpt] >= |names| {
          assert !EntryOk(js, weights[v], names, cpt);
          return Err(IndexOutOfRange);
        }
        var name := names[js[cpt]];
        var group: map<nat, real> := groups[name];
        group := group[v := w];
        groups := groups[name := group];
      }
      cpt := cpt + 1;
    }
    return Ok(groups);
  }

  /** One step of the deduplication at position `k`. */
  lemma DedupStep(order: seq<nat>, k: nat, seen: set<nat>)
    requires k < |order|
    ensures order[k] in seen ==> DedupFrom(order[k..], seen) == DedupFrom(order[k + 1..], seen)
    ensures order[k] !in seen ==>
              DedupFrom(order[k..], seen) == [order[k]] + DedupFrom(order[k + 1..], seen + {order[k]})
  {
    assert order[k..][1..] == order[k + 1..];
  }

  /** The weight loop after the first `k` entries of `order`: one group per
      bone name; the vertices `done` are those met so far, each of them valid;
      `processed` lists them in first-occurrence order; every group holds each
      done vertex's expected weight and nothing else. */
  ghost predicate Progress(names: seq<string>, joints: seq<seq<nat>>, weights: seq<seq<real>>, order: seq<nat>,
                     k: nat, groups: Groups, done: set<nat>, processed: seq<nat>) {
    && k <= |order|
    && groups.Keys == NameSet(names)
    && (forall v :: v in done <==> v in order[..k])
    && (forall v :: v in done ==> VertexOk(names, joints, weights, v))
    && processed + DedupFrom(order[k..], done) == DedupFrom(order, {})
    && (forall g, u :: g in groups ==>
          Holds(groups, g, u, if u in done then Expected(names, joints, weights, g, u) else None))
  }

  /** One turn of the weight loop, on entry `k` of `order`: a vertex already
      done is skipped; a new one is written into the groups, or raises. */
  method Advance(names: seq<string>, joints: seq<seq<nat>>, weights: seq<seq<real>>, order: seq<nat>,
                 k: nat, groups: Groups, done: set<nat>, processed: seq<nat>)
    returns (r: Result<(Groups, set<nat>), ImportError>, processed2: seq<nat>)
    requires k < |order| && Progress(names, joints, weights, order, k, groups, done, processed)
    ensures r.Err? <==> !VertexOk(names, joints, weights, order[k])
    ensures r.Ok? ==> Progress(names, joints, weights, order, k + 1, r.value.0, r.value.1, processed2)
  {
    var v: nat := order[k];
    DedupStep(order, k, done);
    assert order[..k + 1] == order[..k] + [v];
    if v in done {
      return Ok((groups, done)), processed;
    }
    if v >= |joints| {
      return Err(IndexOutOfRange), processed + [v];
    }
    var written := WriteVertex(names, joints, weights, v, groups, done);
    if written.Err? {
      return Err(IndexOutOfRange), processed + [v];
    }
    assert processed + [v] + DedupFrom(order[k + 1..], done + {v})
        == processed + DedupFrom(order[k..], done);
    return Ok((written.value, done + {v})), processed + [v];
  }

  /** _setup_skinning's group creation and weight loop over the loop vertices
      `order`. One group per bone name exists before any weight is written; a
      vertex is processed on its first occurrence only (`processed`); a zero
      weight is skipped; a non-zero weight REPLACES the group's value. The
      result: each group holds, for each referenced vertex, the last non-zero
      weight naming it, and nothing for any other vertex. Reading past the end
      of `joints`, `weights` or `names` raises. */
  method SetupSkinning(names: seq<string>, joints: seq<seq<nat>>, weights: seq<seq<real>>, order: seq<nat>)
    returns (r: Result<Groups, ImportError>, processed: seq<nat>)
    ensures r.Ok? ==> forall g, v :: g in r.value ==>
              Holds(r.value, g, v, if v in order then Expected(names, joints, weights, g, v) else None)
    ensures r.Ok? ==> processed == DedupFrom(order, {})
    ensures r.Ok? ==> r.value.Keys == NameSet(names)
    ensures r.Ok? <==> forall k :: 0 <= k < |order| ==> VertexOk(names, joints, weights, order[k])
  {
    var groups: Groups := map n | n in NameSet(names) :: map[];
    var done: set<nat> := {};
    processed := [];
    var k := 0;
    while k < |order|
      invariant Progress(names, joints, weights, order, k, groups, done, processed)
    {
      var step;
      step, processed := Advance(names, joints, weights, order, k, groups, done, processed);
      if step.Err? {
        return Err(step.error), processed;
      }
      groups, done := step.value.0, step.value.1;
      k := k + 1;
    }
    assert order[..k] == order;
    forall m | 0 <= m < |order| ensures VertexOk(names, joints, weights, order[m]) {
      assert order[m] in done;
    }
    r := Ok(groups);
  }

  /** _setup_skinning on a mesh given as polygons over a loop list: the weight
      loop meets the vertices in loop order, so a vertex no loop refers to
      receives no weight in any group. */
  method SetupMeshSkinning(names: seq<string>, joints: seq<seq<nat>>, weights: seq<seq<real>>,
                           polys: seq<Polygon>, loops: seq<nat>)
    returns (r: Result<Groups, ImportError>)
    requires ValidTopology(polys, loops)
    ensures r.Ok? <==> forall v :: Referenced(polys, loops, v) ==> VertexOk(names, joints, weights, v)
    ensures r.Ok? ==> r.value.Keys == NameSet(names)
    ensures r.Ok? ==> forall g, v :: g in r.value && !Referenced(polys, loops, v) ==> v !in r.value[g]
    ensures r.Ok? ==> forall g, v :: g in r.value && Referenced(polys, loops, v) ==>
              Holds(r.value, g, v, Expected(names, joints, weights, g, v))
  {
    var order := LoopVertices(polys, loops);
    var processed;
    r, processed := SetupSkinning(names, joints, weights, order);
    if r.Ok? {
      forall g, v | g in r.value && !Referenced(polys, loops, v)
        ensures v !in r.value[g]
      {
        assert Holds(r.value, g, v, None);
      }
    } else {
      var k :| 0 <= k < |order| && !VertexOk(names, joints, weights, order[k]);
      assert Referenced(polys, loops, order[k]);
    }
  }

  /** The nodes load hands to _setup_skinning: those with both a mesh and a
      skin (`mesh != -1 and skin != -1`), in node order. */
  function SkinnedNodes(nodes: seq<Node>, from: nat): (r: seq<nat>)
    requires from <= |nodes|
    ensures forall k :: 0 <= k < |r| ==> from <= r[k] < |nodes|
    ensures forall i :: i in r <==> from <= i < |nodes| && nodes[i].mesh != -1 && nodes[i].meshSkin != -1
    ensures forall a, b :: 0 <= a < b < |r| ==> r[a] < r[b]
    decreases |nodes| - from
  {
    if from == |nodes| then []
    else
      var rest := SkinnedNodes(nodes, from + 1);
      if nodes[from].mesh != -1 && nodes[from].meshSkin != -1 then [from] + rest else rest
  }

  /** `[nodes[joint].bone_name for joint in skin.joints]`: entry `k` is the name
      of the node at joint slot `k`; `None` when a joint index is out of range. */
  function BoneNames(nodes: seq<Node>, joints: seq<int>): (r: Option<seq<string>>)
    ensures r.Some? <==> forall k :: 0 <= k < |joints| ==> PyIndex(|nodes|, joints[k]).Some?
    ensures r.Some? ==> && |r.value| == |joints|
                        && forall k :: 0 <= k < |joints| ==>
                             var j := PyIndex(|nodes|, joints[k]).value;
                             r.value[k] == NodeName(nodes[j].name, j)
  {
    if joints == [] then Some([])
    else
      match PyIndex(|nodes|, joints[0])
      case None => None
      case Some(j) =>
        match BoneNames(nodes, joints[1..])
        case None => None
        case Some(rest) => Some([NodeName(nodes[j].name, j)] + rest)
  }

  /** The lookups load makes for skinned node `i` before calling
      _setup_skinning: its mesh, its skin, the skin's bone names and the
      skeleton node whose armature the modifier uses. */
  function PlanJob(nodes: seq<Node>, skins: seq<GltfSkin>, meshCount: nat, i: nat): (r: Result<SkinJob, ImportError>)
    requires i < |nodes|
    ensures r.Err? <==> || PyIndex(meshCount, nodes[i].mesh).None?
                        || PyIndex(|skins|, nodes[i].meshSkin).None?
                        || BoneNames(nodes, skins[PyIndex(|skins|, nodes[i].meshSkin).value].joints).None?
                        || PyIndex(|nodes|, skins[PyIndex(|skins|, nodes[i].meshSkin).value].skeleton).None?
    ensures r.Ok? ==>
              var skin := skins[PyIndex(|skins|, nodes[i].meshSkin).value];
              && r.value.node == i && r.value.mesh < meshCount && r.value.skeleton < |nodes|
              && Some(r.value.mesh) == PyIndex(meshCount, nodes[i].mesh)
              && Some(r.value.boneNames) == BoneNames(nodes, skin.joints)
              && Some(r.value.skeleton) == PyIndex(|nodes|, skin.skeleton)
  {
    match PyIndex(meshCount, nodes[i].mesh)
    case None => Err(IndexOutOfRange)
    case Some(m) =>
      match PyIndex(|skins|, nodes[i].meshSkin)
      case None => Err(IndexOutOfRange)
      case Some(s) =>
        match BoneNames(nodes, skins[s].joints)
        case None => Err(IndexOutOfRange)
        case Some(names) =>
          match PyIndex(|nodes|, skins[s].skeleton)
          case None => Err(IndexOutOfRange)
          case Some(sk) => Ok(SkinJob(i, m, names, sk))
  }

  /** The jobs of the skinning loop of load, one per node of `todo`, in order. */
  function PlanJobs(nodes: seq<Node>, skins: seq<GltfSkin>, meshCount: nat, todo: seq<nat>): (r: Result<seq<SkinJob>, ImportError>)
    requires forall k :: 0 <= k < |todo| ==> todo[k] < |nodes|
    ensures r.Err? <==> exists k :: 0 <= k < |todo| && PlanJob(nodes, skins, meshCount, todo[k]).Err?
    ensures r.Ok? ==> |r.value| == |todo|
    ensures r.Ok? ==> forall k :: 0 <= k < |todo| ==> PlanJob(nodes, skins, meshCount, todo[k]) == Ok(r.value[k])
  {
    if todo == [] then Ok([])
    else
      match PlanJob(nodes, skins, meshCount, todo[0])
      case Err(e) => Err(e)
      case Ok(job) =>
        match PlanJobs(nodes, skins, meshCount, todo[1..])
        case Err(e) => Err(e)
        case Ok(rest) => Ok([job] + rest)
  }

  /** Node `i` has both a mesh and a skin. */
  predicate Skinned(nodes: seq<Node>, i: nat)
    requires i < |nodes|
  {
    nodes[i].mesh != -1 && nodes[i].meshSkin != -1
  }

  /** Some job of `jobs` is for node `i`. */
  predicate HasJob(jobs: seq<SkinJob>, i: nat) {
    exists k :: 0 <= k < |jobs| && jobs[k].node == i
  }

  lemma JobsCoverSkinned(nodes: seq<Node>, todo: seq<nat>, jobs: seq<SkinJob>)
    requires |jobs| == |todo| && forall k :: 0 <= k < |todo| ==> jobs[k].node == todo[k]
    requires forall i :: i in todo <==> 0 <= i < |nodes| && Skinned(nodes, i)
    ensures forall i :: 0 <= i < |nodes| ==> (Skinned(nodes, i) <==> HasJob(jobs, i))
  {
    forall i | 0 <= i < |nodes|
      ensures Skinned(nodes, i) <==> HasJob(jobs, i)
    {
      if Skinned(nodes, i) {
        var k :| 0 <= k < |todo| && todo[k] == i;
        assert jobs[k].node == i;
      }
      if HasJob(jobs, i) {
        var k :| 0 <= k < |jobs| && jobs[k].node == i;
        assert todo[k] in todo;
      }
    }
  }

  /** The facts SkinningJobs states, for the jobs planned from `todo`. */
  lemma PlannedJobs(nodes: seq<Node>, skins: seq<GltfSkin>, meshCount: nat, todo: seq<nat>, r: Result<seq<SkinJob>, ImportError>)
    requires todo == SkinnedNodes(nodes, 0) && r == PlanJobs(nodes, skins, meshCount, todo)
    ensures r.Err? <==> exists i :: 0 <= i < |nodes| && Skinned(nodes, i) && PlanJob(nodes, skins, meshCount, i).Err?
    ensures r.Ok? ==> forall i :: 0 <= i < |nodes| ==> (Skinned(nodes, i) <==> HasJob(r.value, i))
    ensures r.Ok? ==> forall a, b :: 0 <= a < b < |r.value| ==> r.value[a].node < r.value[b].node
    ensures r.Ok? ==> forall k :: 0 <= k < |r.value| ==>
              r.value[k].node < |nodes| && PlanJob(nodes, skins, meshCount, r.value[k].node) == Ok(r.value[k])
  {
    if r.Ok? {
      PlannedJobsOk(nodes, skins, meshCount, todo, r.value);
    } else {
      var k :| 0 <= k < |todo| && PlanJob(nodes, skins, meshCount, todo[k]).Err?;
      assert todo[k] in todo;
    }
  }

  /** PlannedJobs when every job could be made. */
  lemma PlannedJobsOk(nodes: seq<Node>, skins: seq<GltfSkin>, meshCount: nat, todo: seq<nat>, jobs: seq<SkinJob>)
    requires todo == SkinnedNodes(nodes, 0) && PlanJobs(nodes, skins, meshCount, todo) == Ok(jobs)
    ensures forall i :: 0 <= i < |nodes| && Skinned(nodes, i) ==> PlanJob(nodes, skins, meshCount, i).Ok?
    ensures forall i :: 0 <= i < |nodes| ==> (Skinned(nodes, i) <==> HasJob(jobs, i))
    ensures forall a, b :: 0 <= a < b < |jobs| ==> jobs[a].node < jobs[b].node
    ensures forall k :: 0 <= k < |jobs| ==>
              jobs[k].node < |nodes| && PlanJob(nodes, skins, meshCount, jobs[k].node) == Ok(jobs[k])
  {
    assert forall k :: 0 <= k < |todo| ==> jobs[k].node == todo[k];
    JobsCoverSkinned(nodes, todo, jobs);
    forall i | 0 <= i < |nodes| && Skinned(nodes, i)
      ensures PlanJob(nodes, skins, meshCount, i).Ok?
    {
      var k :| 0 <= k < |todo| && todo[k] == i;
    }
  }

  /** The skinning loop of load: exactly the nodes with a mesh and a skin get a
      job, in node order, each made by PlanJob. */
  function SkinningJobs(nodes: seq<Node>, skins: seq<GltfSkin>, meshCount: nat): (r: Result<seq<SkinJob>, ImportError>)
    ensures r.Err? <==> exists i :: 0 <= i < |nodes| && Skinned(nodes, i) && PlanJob(nodes, skins, meshCount, i).Err?
    ensures r.Ok? ==> forall i :: 0 <= i < |nodes| ==> (Skinned(nodes, i) <==> HasJob(r.value, i))
    ensures r.Ok? ==> forall a, b :: 0 <= a < b < |r.value| ==> r.value[a].node < r.value[b].node
    ensures r.Ok? ==> forall k :: 0 <= k < |r.value| ==>
              r.value[k].node < |nodes| && PlanJob(nodes, skins, meshCount, r.value[k].node) == Ok(r.value[k])
  {
    var todo := SkinnedNodes(nodes, 0);
    var r := PlanJobs(nodes, skins, meshCount, todo);
    PlannedJobs(nodes, skins, meshCount, todo, r);
    r
  }
}

=== FILE: transform.dfy ===
/** The index permutations create_object and Skin.get_matrix apply when they hand
    glTF transforms to Blender (blender_io/node_io.py). The affine decomposition
    and the coordinate remaps are supplied by the caller as functions. */
module Transform {
  import opened Wrappers
  import opened GltfTypes

  type Vec3 = s: seq<real> | |s| == 3 witness [0.0, 0.0, 0.0]

  /** A 4x4 matrix as Blender holds it: four rows of four entries. */
  predicate IsMat4(mat: seq<seq<real>>) {
    |mat| == 4 && forall r :: 0 <= r < 4 ==> |mat[r]| == 4
  }

  /** A Blender quaternion, real part first. */
  datatype Quat = Quat(w: real, x: real, y: real, z: real)

  /** What `matrix.decompose()` yields: translation, rotation and scale. */
  datatype Decomposition = Decomposition(translation: Vec3, rotation: Quat, scale: Vec3)

  /** The transform create_object assigns to an object; `None` leaves Blender's default. */
  datatype Placement = Placement(location: Option<seq<real>>, rotation: Option<Quat>, scale: Option<Vec3>)

  /** The matrix built from a glTF node's 16 column-major floats: entry (row r,
      column c) is element `4*c + r`. */
  function MatrixFromColumnMajor(m: seq<real>): (mat: seq<seq<real>>)
    requires |m| >= 16
    ensures IsMat4(mat)
    ensures forall r, c :: 0 <= r < 4 && 0 <= c < 4 ==> mat[r][c] == m[4 * c + r]
  {
    [[m[0], m[4], m[8], m[12]],
     [m[1], m[5], m[9], m[13]],
     [m[2], m[6], m[10], m[14]],
     [m[3], m[7], m[11], m[15]]]
  }

  /** The reverse layout: a matrix written out column by column. */
  function ColumnMajor(mat: seq<seq<real>>): (m: seq<real>)
    requires IsMat4(mat)
    ensures |m| == 16
  {
    seq(16, k requires 0 <= k < 16 => mat[k % 4][k / 4])
  }

  /** Laying out 16 floats as a matrix loses nothing: writing the matrix back
      column by column gives the 16 floats again. */
  lemma MatrixLayoutRoundTrip(m: seq<real>)
    requires |m| >= 16
    ensures ColumnMajor(MatrixFromColumnMajor(m)) == m[..16]
  {
    var back := ColumnMajor(MatrixFromColumnMajor(m));
    forall k | 0 <= k < 16
      ensures back[k] == m[k]
    {
      assert 4 * (k / 4) + k % 4 == k;
    }
  }

  /** Every 4x4 matrix arises from exactly its column-major listing. */
  lemma MatrixLayoutOnto(mat: seq<seq<real>>)
    requires IsMat4(mat)
    ensures MatrixFromColumnMajor(ColumnMajor(mat)) == mat
  {
    var m := ColumnMajor(mat);
    var back := MatrixFromColumnMajor(m);
    forall r | 0 <= r < 4
      ensures back[r] == mat[r]
    {
      forall c | 0 <= c < 4
        ensures back[r][c] == mat[r][c]
      {
        assert (4 * c + r) % 4 == r && (4 * c + r) / 4 == c;
      }
    }
  }

  /** The ctypes `Mat16` record an inverse bind matrix is read into; fields in memory order. */
  datatype Mat16 = Mat16(
    f00: real, f01: real, f02: real, f03: real,
    f10: real, f11: real, f12: real, f13: real,
    f20: real, f21: real, f22: real, f23: real,
    f30: real, f31: real, f32: real, f33: real)

  /** The 16 floats of a `Mat16` in the order they sit in the buffer. */
  function Memory(m: Mat16): (s: seq<real>)
    ensures |s| == 16
  {
    [m.f00, m.f01, m.f02, m.f03, m.f10, m.f11, m.f12, m.f13,
     m.f20, m.f21, m.f22, m.f23, m.f30, m.f31, m.f32, m.f33]
  }

  /** Skin.get_matrix: the inverse bind matrix of joint slot `joint`, laid out
      from the buffer exactly as a node matrix is; `None` when the slot is out of range. */
  function GetMatrix(inverse: seq<Mat16>, joint: int): (r: Option<seq<seq<real>>>)
    ensures r.Some? <==> 0 <= joint < |inverse|
    ensures r.Some? ==> r.value == MatrixFromColumnMajor(Memory(inverse[joint]))
  {
    if 0 <= joint < |inverse| then
      var m := inverse[joint];
      Some([[m.f00, m.f10, m.f20, m.f30],
            [m.f01, m.f11, m.f21, m.f31],
            [m.f02, m.f12, m.f22, m.f32],
            [m.f03, m.f13, m.f23, m.f33]])
    else None
  }

  /** glTF's `[x, y, z, w]` rotation as Blender's `(w, x, y, z)`. */
  function QuatFromGltf(r: seq<real>): (q: Quat)
    requires |r| >= 4
    ensures q.w == r[3] && [q.x, q.y, q.z] == r[..3]
  {
    Quat(r[3], r[0], r[1], r[2])
  }

  /** The reverse reordering, Blender `(w, x, y, z)` to glTF `[x, y, z, w]`. */
  function QuatToGltf(q: Quat): (r: seq<real>)
    ensures |r| == 4 && QuatFromGltf(r) == q
  {
    [q.x, q.y, q.z, q.w]
  }

  /** Reading a glTF rotation and writing it back gives its four components again. */
  lemma QuatReorderRoundTrip(r: seq<real>)
    requires |r| >= 4
    ensures QuatToGltf(QuatFromGltf(r)) == r[..4]
  {
    assert r[..4] == r[..3] + [r[3]];
  }

  /** Scale handed to Blender as `(s0, s2, s1)`. */
  function SwapScale(s: seq<real>): (r: Vec3)
    requires |s| >= 3
    ensures multiset(r) == multiset(s[..3])
    ensures r[0] == s[0] && r[1] == s[2]
  {
    assert s[..3] == [s[0], s[1], s[2]];
    [s[0], s[2], s[1]]
  }

  /** The scale swap is a permutation of the three components and undoes itself. */
  lemma SwapScaleInvolution(s: seq<real>)
    requires |s| >= 3
    ensures SwapScale(SwapScale(s)) == s[..3]
    ensures multiset(SwapScale(s)) == multiset(s[..3])
    ensures SwapScale(s)[0] == s[0] && SwapScale(s)[1] == s[2] && SwapScale(s)[2] == s[1]
  {
    assert s[..3] == [s[0], s[1], s[2]];
  }

  /** The transform part of create_object. Translation, rotation and scale are
      applied in turn, each only when present; a present matrix then overrides
      all three with its decomposition. A present field too short to index raises. */
  function ResolveTransform(n: GltfNode, modV: seq<real> -> seq<real>, modQ: Quat -> Quat,
                            decompose: seq<seq<real>> -> Decomposition): (r: Result<Placement, ImportError>)
    ensures r.Err? <==> 0 < |n.rotation| < 4 || 0 < |n.scale| < 3 || 0 < |n.matrix| < 16
    ensures r.Ok? && |n.matrix| > 0 ==>
              var d := decompose(MatrixFromColumnMajor(n.matrix));
              r.value == Placement(Some(modV(d.translation)), Some(modQ(d.rotation)), Some(SwapScale(d.scale)))
    ensures r.Ok? && |n.matrix| == 0 ==>
              && (r.value.location.Some? <==> |n.translation| > 0)
              && (r.value.rotation.Some? <==> |n.rotation| > 0)
              && (r.value.scale.Some? <==> |n.scale| > 0)
              && (r.value.location.Some? ==> r.value.location.value == modV(n.translation))
              && (r.value.rotation.Some? ==> r.value.rotation.value == modQ(QuatFromGltf(n.rotation)))
              && (r.value.scale.Some? ==> r.value.scale.value == SwapScale(n.scale))
  {
    var location := if |n.translation| > 0 then Some(modV(n.translation)) else None;
    if 0 < |n.rotation| < 4 then Err(IndexOutOfRange)
    else
      var rotation := if |n.rotation| > 0 then Some(modQ(QuatFromGltf(n.rotation))) else None;
      if 0 < |n.scale| < 3 then Err(IndexOutOfRange)
      else
        var scale := if |n.scale| > 0 then Some(SwapScale(n.scale)) else None;
        if |n.matrix| == 0 then Ok(Placement(location, rotation, scale))
        else if |n.matrix| < 16 then Err(IndexOutOfRange)
        else
          var d := decompose(MatrixFromColumnMajor(n.matrix));
          Ok(Placement(Some(modV(d.translation)), Some(modQ(d.rotation)), Some(SwapScale(d.scale))))
  }
}

=== FILE: wrappers.dfy ===
/** `Option` for Python's `None` and `Result` for a step that may raise: the
    two sum types every module of the importer model is written with. */
module Wrappers {

  /** An optional value: the model's stand-in for Python's `None`. */
  datatype Option<+T> = None | Some(value: T)

  /** The outcome of an import step: a value, or the exception that aborts the import. */
  datatype Result<+T, +E> = Ok(value: T) | Err(error: E) {

    predicate IsFailure() {
      Err?
    }

    function PropagateFailure<U>(): Result<U, E>
      requires Err?
    {
      Err(error)
    }

    function Extract(): T
      requires Ok?
    {
      value
    }
  }
}
